=== FILE: README.md ===
# Nuggets server: a Dafny model of its game state machine

The nuggets server owns one game. Players and one spectator talk to it over
datagrams. It keeps:

- a master grid: one character and one gold amount per cell;
- a player registry, keyed by the sender's port;
- an index from each player's letter to the player;
- a spectator slot.

The server processes one command at a time:

- `PLAY <name>` admits a player.
- `SPECTATE` takes the spectator slot.
- `KEY <k>` quits with `Q`, or moves one step (lower case) or repeatedly (upper case) in one of eight directions.
- Anything else is answered with an error.

Every command that changes the state ends with a refresh: an admission, a
spectator's arrival, a player's quit and a successful move. A refused PLAY, an
ERROR reply, a refused move and the spectator's keys other than `Q` send at
most a reply and leave the state alone. The refresh stops the game once all
250 units of gold have been picked up.

The server reads each datagram as C text, one byte per character. The model's
`char`s stand for those bytes: the graph-or-blank test and the 50-character
cut on names are taken per byte, as `isgraph`, `isblank` and the loop over
`char`s apply them.

This project models that state machine as pure functions over an immutable
`Game` record. It also models the start-up that builds the first state: load
the map, create the game, and generate the gold piles.

The modules follow the structure of `server.c`:

- `Grids`: the grid accessors and the map loader.
- `Protocol`: splitting off the command word, sanitising names, and the replies.
- `Gold`: `generate_position` and `generate_gold`.
- `State`: `game_t`, `player_t`, `game_new`, `player_new`, `pickup_gold`, the state effects of `refresh`, and the start-up of `main`.
- `Movement`: `point_status` and `move`, and the repeat loop of the capital keys.
- `Server`: `parse_message`, `add_player`, and the message handler.
- `Consistency`: the invariant the game keeps between commands, and its proofs.
- `Findings`: concrete inputs on which the code as written goes wrong.

The message-handling transitions that contain a defect take a `Version`;
the others, such as SPECTATE and `refresh`, do not:

- `AsWritten` follows the code as it stands, defects included.
- `Corrected` repairs the defects listed under Findings.

The start-up functions `Gold.GenerateGold` and `State.Init` take no `Version`.
They model only the corrected pile array, which has one entry per pile.
`Findings.PileArrayTooShort` models the array as written, one entry short.

The invariant proofs are stated for `Corrected`.

`rand()` is an oracle. The caller supplies the sequence of values it returns,
and each transition returns the values it did not use. When the supplied
values run out while rejection sampling is still searching, the outcome is
`Stalled`. The code would keep drawing.

The outcome `Crashed` marks a point where the code has undefined behaviour.
These are all the cases:

- a scan past the end of the message, when no byte of the datagram is whitespace (as written);
- `KEY Q` from a sender whose port is not registered, a NULL player lookup (as written);
- a movement key from a sender whose port is not registered, the same NULL lookup (as written);
- a division by a zero grid dimension in `generate_position`, when `add_player` places a player on an empty grid;
- a move that `Movement.Advance` answers with `Fault`, in either version:
  - the target shows a letter that names no player, a NULL lookup in the symbol index;
  - the target shows the mover's own letter, so its positions would be freed twice;
  - the mover stands outside the grid, which no placed player does;
- a repeated move, with a capital key, one of whose steps faults in this way.

In a consistent game a corrected move of an active player never faults.

## Model

| member | source | states |
|---|---|---|
| Grids.SetChar | lib/gridtest.c:64-68 | writing a character returns the one it replaced and the next read returns the new one; outside the grid the answer is '\0' and nothing is written; gold and every other cell are untouched |
| Grids.SetGold | lib/gridtest.c:70-73 | after setting the gold at a cell, reading it returns that amount; the old amount is returned, or -1 outside the grid; characters and other cells are untouched; the total gold on the grid changes by exactly the difference |
| Grids.Swap | server.c:660 | exchanges the characters of two in-bounds cells and leaves their gold, every other cell and the total gold alone; with a cell out of bounds nothing changes |
| Grids.Load | server.c:114-115 | the loaded grid has one row per map line, is as wide as the longest line, shows each line's characters (blank past a short line's end) with no gold, and counts its '.' cells as room spots |
| Protocol.ScanCommand | server.c:236-241 | finds the first whitespace of the message, with no whitespace before it; None exactly when the message has no whitespace, the case where the loop runs off the end |
| Protocol.SplitCommand | server.c:236-245 | the command word holds no whitespace, and word, separator and remainder put back together give the message; without whitespace the word is the whole message |
| Protocol.Sanitize | server.c:260-271 | the name is cut to 50 characters, every character left is graph or blank, characters already graph or blank stay where they are, and the others become '_' |
| Protocol.SanitizeFixpoints | server.c:260-271 | sanitising leaves a name unchanged exactly when it is at most 50 characters long and all of them are graph or blank |
| Protocol.SanitizeIdempotent | server.c:260-271 | sanitising twice gives the same name as sanitising once |
| Gold.GeneratePosition | server.c:426-449 | the cell returned is in the grid and shows the wanted symbol; it is the first draw that names such a cell, and every earlier draw missed; Exhausted exactly when no draw hits |
| Gold.PileCount | server.c:471-479 | the number of piles lies between 10 and the smaller of 30 and the room-spot count |
| Gold.FillOnes | server.c:482-485 | setting the first n entries to 1 succeeds exactly when the array has at least n entries; entries past n are unchanged |
| Gold.Spread | server.c:487-493 | each draw d adds one unit to pile d mod the pile count, so pile k ends with its start plus the number of draws that select it; no pile shrinks, and the sum grows by the number of draws |
| Gold.MakePiles | server.c:481-493 | there are n piles, each holding at least 1 unit, and together they hold n plus the number of spread units |
| Gold.PlacePiles | server.c:496-504 | pile k is placed on a distinct cell that showed '.', which then shows '*' and holds that pile's amount; every other cell is unchanged |
| Gold.PlacePilesGold | server.c:496-504 | placing the piles adds exactly their sum to the gold on the grid, and gold still lies only on '*' cells |
| Gold.GenerateGold | server.c:461-507 | with fewer than 10 room spots the answer is 1 and nothing is placed; otherwise there are 10 to min(30, room spots) piles, each at least 1, summing to 250, on distinct former '.' cells that now show '*' and hold their pile; no other cell changes, and the grid gains exactly 250 units |
| Gold.Scatter | server.c:496-504 | the placement loop run for n piles answers those piles on distinct former '.' cells, and adds their sum to the grid's gold |
| Gold.DropPile | server.c:497-501 | one pile dropped on a '.' cell shows '*' there and adds exactly its amount to the grid's gold, which still lies only on '*' cells |
| State.NewPlayer | server.c:989-1005 | a new player has the given address, name, symbol and active flag, stands at the given position with its previous position the same, has an empty purse and nothing just picked up, and is not in a passage |
| State.GameNew | server.c:930-945 | a new game is playing with 250 gold remaining, no players, symbol 'A' next and no spectator |
| State.Lookup | server.c:1014-1021 | the registry answers a slot exactly when the sender's port is registered, and that slot is in the roster |
| State.FindSymbol | server.c:665-667 | the symbol index answers the first player admitted under the letter; None exactly when no player has that letter |
| State.Collect | server.c:620-622 | reads the gold at a cell and zeroes it: the amount is the cell's former gold, the grid's total drops by it, and characters and other cells are untouched |
| State.PickupGold | server.c:612-627 | the cell's gold moves into the purse: the purse grows by the amount, gold_picked_up becomes it, gold_remaining drops by it, and the grid's total gold drops by it; no other player and no other cell's gold changes; as written gold_pile_number is left alone, corrected a nonzero pickup takes one pile off it |
| State.PickupFrame | server.c:616-621 | pickup_gold changes no character but the overwritten cell, which then shows the overwrite; every cell other than the pile and the overwritten one is unchanged |
| State.Mark | server.c:616-618 | an optional overwrite shows its character at the cell and changes no gold and no other cell |
| State.Refresh | server.c:816-835 | every active registered player's gold_picked_up is reset to 0, as send_gold does (server.c:766-776); playing becomes false exactly when no gold remains; nothing else changes |
| State.Init | server.c:102-137 | start-up refuses the map exactly when it has fewer than 10 room spots; otherwise the game is playing, has no players, 10 to 30 piles (at most the room-spot count), and the 250 units remaining all lie on the grid |
| Movement.PointStatus | server.c:576-598 | 1 exactly when the previous cell shows '.' or a letter and the next shows '#'; 2 exactly when the previous shows '#' or a letter and the next shows '.'; 0 otherwise |
| Movement.Vacate | server.c:697-712 | as written, a step onto '#' repairs the vacated cell to '.' only when point_status reports an entry and the mover was not in a passage, and symmetrically for exits; corrected, the vacated cell always shows the terrain the mover leaves and the passage flag tells the target's terrain |
| Movement.StepOnto | server.c:696-729 | the mover lands on the target with prev_pos the cell it left; the target shows the mover's letter; the vacated cell shows '.' or '#'; only those two cells change; no gold moves and no other player changes |
| Movement.StepOntoGold | server.c:714-729 | the mover lands on the pile, whose gold moves into its purse and out of gold_remaining and the grid; the vacated cell shows '.' as written, or the terrain left behind when corrected; only the two cells change |
| Movement.Exchange | server.c:662-694 | the two letters swap cells; the mover takes the other player's previous position and passage flag, and the other takes the mover's position, previous position and passage flag; no gold moves |
| Movement.Relocate | server.c:720-729 | the mover stands at the target with prev_pos the cell it left and the given passage flag; grid, gold and other players are unchanged |
| Movement.Advance | server.c:639-736 | refused (the grid and every player unchanged) exactly when the target is outside the grid or not '.', '#', '*' or a letter; undefined exactly when it is not refused and the target's letter names no player or the mover itself, or the mover stands outside the grid; a successful move puts the mover on the target, which then shows the letter the mover's cell showed, and changes no cell but those two; the mover keeps its name, letter, address and active flag; a step onto a pile adds the pile to the mover's purse, takes it off gold_remaining, leaves the target with no gold and sets gold_picked_up to it, while any other step leaves the purse, gold_remaining and the target's gold alone; after a step onto a non-letter the mover's prev_pos is the cell it left and every other player is unchanged but for gold_picked_up; after a step onto another player's letter, that player keeps its name, letter, address, active flag and purse and stands on the mover's old cell, which shows its letter, and the two trade previous positions and passage flags, with every third player unchanged; the pile count drops by one exactly when a corrected step picks up a nonzero pile; the frame (playing, player count, next symbol, map, registry, spectator) is kept |
| Movement.StepOntoStepped | server.c:696-712 | a step onto a room or passage cell moves the mover as Advance states, touching only the two cells, no gold and no purse, and no other player |
| Movement.StepOntoGoldStepped | server.c:714-729 | a step onto a pile moves the mover as Advance states: the pile goes into the mover's purse and out of gold_remaining, only the two cells change, and no other player changes |
| Movement.ExchangeStepped | server.c:662-694 | a move onto another player's letter is the exchange Advance states: both purses and gold_remaining are kept, and every third player is left alone |
| Movement.SteppedRefreshed | server.c:731-733 | the closing refresh keeps every placement and exchange fact of the step, since it changes only gold_picked_up |
| Movement.SteppedPurses | server.c:612-627 | whatever kind of step is taken, gold_remaining plus the sum of all purses is unchanged: gold only moves from the grid into one purse |
| Movement.Move | server.c:731-733 | a successful move is followed by refresh: the same placement, cell, exchange, gold, purse and pile-count facts as the step; the player count, next symbol, map, registry and spectator are kept; gold_remaining plus the sum of the purses is unchanged; playing is false once no gold remains and otherwise keeps its value |
| Movement.MoveSpendsBudget | server.c:646-651 | each successful step brings the mover exactly one cell closer to the border it is heading for |
| Movement.BudgetStep | server.c:646-651 | a player that lands on the next cell in its direction, on a grid of the same shape, has exactly one cell fewer to go to the border |
| Movement.BudgetBound | server.c:646-651 | from inside the grid, fewer cells than the longer side separate a player from the border in any direction |
| Movement.Run | server.c:331-333 | the repeat loop ends; after n steps the mover is n cells along the direction, n is at most the distance to the border, and the next move is refused; the player count, next symbol, map, registry and spectator are kept; gold_remaining minus the grid's gold is unchanged, and so is gold_remaining plus the sum of the purses, so purses change only by the gold picked up; the pile count never grows and is unchanged as written; playing is on afterwards only if it was on before; a run of zero steps leaves the game as it was |
| Movement.RunIsShort | server.c:331-333 | from inside the grid, a run takes fewer steps than max(nR, nC) |
| Movement.RunIsStraight | server.c:331-333 | a run of n steps ends at the start position plus n times the direction vector |
| Server.NextSymbol | server.c:560 | the next symbol is the current one plus 1 while the char does not wrap |
| Server.PlacementSymbol | server.c:522-526 | a new player is placed on gold exactly when room spots no longer outnumber gold piles, and on a room cell otherwise |
| Server.Admit | server.c:527-552 | the new player gets the current symbol and the sender's address, and is active where placed with prev_pos equal to pos; the cell shows its letter, and any gold there is in its purse and gone from gold_remaining (and, corrected, from the pile count); earlier players and other cells are unchanged; the port is registered only if it was free |
| Server.Enroll | server.c:527-552 | the new player is appended with the current symbol at pos, the cell shows that symbol, the port is registered only if it was free, and nothing else changes |
| Server.Seat | server.c:527-561 | admission at a drawn cell followed by refresh and the counter updates: the newcomer is seated there with its gold, playing stays on only while gold remains, and other cells and earlier players are unchanged |
| Server.AddPlayer | server.c:517-562 | undefined exactly on an empty grid; Stalled only when no draw names a cell showing the placement symbol; otherwise the newcomer stands on the cell the sampler answers, which showed that symbol, as the last roster entry with the current symbol, active, holding any gold found there; the port is registered if it was free; playing stays on only while gold remains; the reply is OK with the symbol and then GRID; symbol and player counters each move on by one; other cells and earlier players are unchanged |
| Server.Play | server.c:248-275 | a full roster or an empty name is answered with QUIT and changes nothing; otherwise the sanitised name is admitted |
| Server.Spectate | server.c:277-292 | the sender becomes the spectator; a previous spectator is told it was replaced; the newcomer gets GRID; players, grid, gold_remaining, the pile count, the player count, the next symbol and the map are unchanged, and playing stays on exactly when it was on and gold remains |
| Server.Quit | server.c:300-318 | the reply thanks a spectator for watching and anyone else for playing; as written it is undefined exactly when the sender's port is not registered; otherwise the player is deactivated, keeping its name, letter, address, purse, position, previous position and passage flag; every other player is unchanged but for gold_picked_up; the map's character is restored at its position, whose gold is kept, and no other cell changes; gold_remaining, the pile count, the player count, the next symbol, the map, the registry and the spectator are kept, and playing stays on exactly when it was on and gold remains |
| Server.KeyMove | server.c:325-403 | the sixteen movement keys map to the eight directions, repeating exactly for the capital letters |
| Server.KeyMovement | server.c:320-404 | a single-step key from a registered player fails exactly when move does and otherwise leaves the state unchanged when refused, or is move's result with the mover on the target; a repeating key is the repeat loop's result, which ends at a refused step; as written an unregistered sender is undefined; corrected, keys from an unregistered or inactive sender change nothing; no reply is sent |
| Server.Key | server.c:295-405 | Q quits whoever sends it; any other key from the spectator is ignored; a movement key from anyone else is handled by the movement branch with its direction and repeat flag; an unknown key is answered with ERROR |
| Server.Route | server.c:243-409 | PLAY, SPECTATE and KEY go to their handlers with the remainder, and any other command word is answered with ERROR |
| Server.Dispatch | server.c:228-409 | on a text without NUL: as written a message without whitespace is undefined; otherwise the command word up to the first whitespace is routed with the rest |
| Server.Handle | server.c:196-245 | a datagram without NUL is dispatched whole; as written the whitespace scan walks the raw bytes, past any NUL, and is undefined only when no byte is whitespace; the command word and the remainder are then each read up to their own first NUL and routed; corrected, the datagram is cut at its first NUL and dispatched |
| Server.NulBeforeSpace | server.c:236-245 | as written the datagram `KEY\0 Q` is the command KEY with the remainder Q, a quit; corrected it is a bare KEY with an empty remainder |
| Protocol.RawSplitWithoutNul | server.c:236-245 | on a datagram without NUL, reading the two halves of the raw scan as C strings gives the same command word and remainder as the split of the text |
| Protocol.TextEndsAtNul | server.c:196-206 | the C string a datagram carries is all of it when it holds no NUL, and exactly the characters before its first NUL otherwise |
| Consistency.InitConsistent | server.c:102-137 | on a map of terrain characters, the start-up state satisfies the invariant with empty purses |
| Consistency.RefreshKeeps | server.c:816-835 | refresh keeps the invariant and ends the game once no gold remains |
| Consistency.OccupantFound | server.c:665-667 | in a consistent game, every letter on the grid is found in the symbol index at its own slot |
| Consistency.StepOntoKeeps | server.c:696-729 | a corrected step onto a room or passage cell keeps the invariant |
| Consistency.StepOntoGoldKeeps | server.c:714-729 | a corrected step onto gold keeps the invariant, and the gold on the grid plus the purses still total 250 |
| Consistency.ExchangeKeeps | server.c:662-694 | moving onto a letter finds another active player standing there, and the exchange keeps the invariant |
| Consistency.ExchangeTradesPlaces | server.c:662-694 | in a consistent game, a move onto a letter always succeeds, and the two players trade positions, previous positions and passage flags |
| Consistency.AdvanceKeeps | server.c:639-736 | a corrected move of an active player is never undefined, keeps the invariant, and the mover stays active |
| Consistency.MoveKeeps | server.c:639-736 | the same with move's closing refresh, which also settles the game-over flag; after a corrected move the target shows the mover's letter |
| Consistency.RunKeeps | server.c:331-333 | a corrected repeated move is never undefined and ends in a consistent state |
| Consistency.AdmitKeeps | server.c:527-561 | admitting a player onto a room or gold cell into a roster with room, and advancing the counters, keeps the invariant |
| Consistency.AddPlayerKeeps | server.c:517-562 | admission into a roster with room is never undefined in a consistent game and keeps the invariant |
| Consistency.QuitKeeps | server.c:300-318 | a corrected quit is always handled and keeps the invariant |
| Consistency.SpectateKeeps | server.c:277-292 | SPECTATE keeps the invariant |
| Consistency.KeyMovementKeeps | server.c:320-404 | a corrected movement key is always handled and keeps the invariant |
| Consistency.HandleKeeps | server.c:196-212 | from a consistent state the corrected server never reaches undefined behaviour, and every datagram it handles leaves the state consistent |
| Consistency.Conservation | server.c:612-627 | in a consistent game the gold on the grid plus the purses is exactly 250; a direct corollary of the invariant, which holds it as a conjunct |
| Consistency.GameOverEndsLoop | server.c:828-833 | in a consistent game with no gold remaining, the handler ends the message loop; a direct corollary of the invariant's last conjunct |
| Findings.TwentySeventhPlayer | server.c:250 | with 26 players the code admits another under the symbol '[', which is no letter and leaves its cell matching neither a player nor the map; corrected, the sender gets QUIT |
| Findings.PileArrayTooShort | server.c:482-485 | an array of n - 1 piles cannot take n entries of 1, and an array of n can |
| Findings.BareSpectate | server.c:236-241 | a bare SPECTATE is undefined as written, and admits the spectator when corrected |
| Findings.SpectatorQuit | server.c:310-313 | an unregistered spectator's KEY Q is undefined as written; corrected, it only gets its reply |
| Findings.EnterPassageAsWritten | server.c:698-704 | a player stepping into a passage straight from its placement cell leaves '#' on the room cell and is not flagged as in the passage, breaking the invariant |
| Findings.ArrivalSteps | server.c:696-712 | on any one-row map of three cells whose map shows '.' at (1,0), with the only player just placed there (prev_pos equal to its position, not in a passage) and '#' at (2,0), the step right succeeds; as written it leaves '#' on the room cell and no passage flag, breaking the invariant; corrected it leaves '.' and sets the flag, and from a consistent state with the player active the result is consistent |
| Findings.EnterPassageCorrected | server.c:698-704 | the corrected step restores '.', flags the passage, and keeps the invariant |
| Findings.GoldFromPassageAsWritten | server.c:617 | picking up gold from a passage writes '.' on the passage cell and keeps the passage flag on a room cell, breaking the invariant |
| Findings.LurkerSteps | server.c:714-729 | on any one-row map of two cells whose map shows '#' at (0,0), with the only player there in the passage with an empty purse and all 250 units in a pile at (1,0), the step right lands on the pile and puts all 250 units in the purse; as written it leaves '.' behind and keeps the passage flag, breaking the invariant; corrected it leaves '#' behind and clears the flag, and from a consistent state with the player active the result is consistent |
| Findings.GoldFromPassageCorrected | server.c:617 | the corrected pickup restores '#', clears the flag, and keeps the invariant |
| Findings.RepeatedQuitAsWritten | server.c:312-317 | a second KEY Q from a player who already quit erases the letter of the player now standing on its old cell |
| Findings.DepartedMoveAsWritten | server.c:643-660 | a movement key from a player who already quit drags another player's letter away from that player |
| Findings.DepartedCorrected | server.c:300-318 | corrected, keys from a player who already quit change nothing, in a state that satisfies the invariant |
| Findings.HoardAdmitted | server.c:517-562 | on a map whose ten room cells all hold piles, the newcomer is placed on a pile and picks it up; the count says nine piles when corrected and still ten as written |
| Findings.PileStep | server.c:714-729 | a player placed at (0,0) on a one-row map, with a pile of 25 to its right, steps onto it; the cell it left shows '.', and the pile count drops by one only when corrected |
| Findings.TwoPilesTakenShape | server.c:639-736 | after the newcomer also steps onto the next pile, the room cell it left shows '.', and the count says eight piles when corrected and still ten as written |
| Findings.PilesNotCountedAsWritten | server.c:522 | as written the count still says ten, so a later newcomer is sent to gold and the draw naming the free room cell is rejected |
| Findings.PilesCountedCorrected | server.c:522 | corrected, eight piles are left and the newcomer is placed on the free room cell |

The invariant (`Consistency.Consistent`) says:

- the two grids have the same nonzero shape;
- the player counter equals the roster length, at most 26;
- the next symbol names the next free roster slot;
- the gold on the grid equals gold_remaining, and together with the purses it makes 250;
- every letter on the grid is the active player standing there, with no gold under it;
- every '*' lies on a room cell of the map;
- every other cell shows its map character and holds no gold;
- every active player stands in the grid on a room or passage cell showing its letter, and is flagged as in a passage exactly when that cell is one;
- no gold remaining implies the game is no longer playing.

## Left out

- Visibility and rendering (`grid_visibility`, `grid_string`, `grid_string_player`): their definitions are not part of this model. Each player's own grid is taken to show the map file's characters, so one map grid stands for all of them.
- The GOLD, DISPLAY and leaderboard messages, and every other broadcast. Only replies addressed to the single sender are recorded in `sent`. `refresh` contributes only its state effects.
- The transport, `main`'s argument handling, the seed (`srand`, `getpid`), `play_game`, logging, and memory management (allocation, freeing, the aliasing of `pos` and `prev_pos`). Positions are values.
- The hashtable and set internals. The registry is a map from port to roster slot and keeps the first entry for a port. The symbol index is the roster in admission order.
- Gold.GeneratePosition: the sampler never stops when no cell shows the wanted symbol. Over a finite oracle the model answers Exhausted, and the enclosing command answers Stalled.
- Server.NextSymbol: models the 8-bit wrap of `curr_symbol` only past 255, which 27 admissions cannot reach.
- Movement.Advance: a mover standing outside the grid is modelled as undefined (Fault). No reachable state has one, and the code would swap nothing and read the sentinel.
- Placement on gold: even corrected, `add_player` draws a gold cell whenever room spots do not outnumber the piles left, without checking that one exists; over a finite oracle the model answers Stalled, as for any sampler that never hits.
- Quitting: the spectator is never dropped from its slot. The code only answers it. The corrected version avoids the NULL lookup but leaves the slot as it is.
- `gold_picked_up` is set to the amount picked up rather than increased by it, as in the code.

## Findings

| source | as written | input that shows it | evidently intended | confidence | as-written member | corrected member |
|---|---|---|---|---|---|---|
| server.c:250 | `player_number > MaxPlayers` admits a 27th player | a consistent game with 26 players receives `PLAY x` | a roster of 26 is full | high; not executed | Findings.TwentySeventhPlayer | Consistency.HandleKeeps |
| server.c:482-485 | the pile array has `n_gold_piles - 1` entries but `n_gold_piles` are written | any map with at least 10 room spots | an array of `n_gold_piles` entries | high; not executed | Findings.PileArrayTooShort | Gold.MakePiles |
| server.c:236-241 | the command scan runs past a message with no whitespace | the datagram `SPECTATE` | the command word ends at the end of the text | high; not executed | Findings.BareSpectate | Server.Dispatch |
| server.c:310-313 | the player lookup for `KEY Q` is dereferenced unchecked | the spectator, which is never registered as a player, sends `KEY Q` | an unregistered sender only gets its reply | high; not executed | Findings.SpectatorQuit | Consistency.QuitKeeps |
| server.c:698-704 | point_status reads the mover's own cell for both positions on its first step, so an entry into a passage goes unnoticed | map `..#`, player A just placed at (1,0), key `l` | the vacated room cell shows '.' and A is in the passage | high; not executed | Findings.EnterPassageAsWritten | Findings.EnterPassageCorrected |
| server.c:617 | pickup_gold always writes '.' on the vacated cell, and the passage flag is kept | map `#.`, A in the passage at (0,0), all gold at (1,0), key `l` | the passage cell shows '#' and A is no longer in a passage | high; not executed | Findings.GoldFromPassageAsWritten | Findings.GoldFromPassageCorrected |
| server.c:312-317 | a player who already quit is deactivated again and its old cell overwritten | A quit at (0,0), B now stands there, A sends `KEY Q` | keys from an inactive player change nothing | high; not executed | Findings.RepeatedQuitAsWritten | Findings.DepartedCorrected |
| server.c:643-660 | move does not check that the sender is still active | A quit at (0,0), B now stands there, A sends `KEY l` | keys from an inactive player change nothing | high; not executed | Findings.DepartedMoveAsWritten | Consistency.KeyMovementKeeps |
| server.c:613-627, server.c:522 | pickup_gold never decrements `gold_pile_number`, which add_player reads to choose between gold and room cells | map `..........` with ten piles of 25; A is placed on (0,0) and steps right; B sends `PLAY b` | every pile taken is off the count, so with eight piles left B goes to the free room cell | medium; not executed | Findings.PilesNotCountedAsWritten | Findings.PilesCountedCorrected |

=== FILE: consistency.dfy ===
/**
  The invariant a running game keeps, and its proofs for the corrected
  transitions: gold is conserved, every letter on the grid is an active
  player standing there, every other cell shows either its map terrain or
  gold lying on a room cell, and each player's passage flag tells the
  terrain under it.
 */
module Consistency {
  import opened Options
  import opened Ctype
  import opened Grids
  import opened Protocol
  import opened Gold
  import opened State
  import opened Movement
  import opened Server

  /** The map characters a game can be played on: no letters, no gold. */
  predicate Terrain(m: char) {
    !IsAlpha(m) && m != '*'
  }

  /** The roster slot a player letter names. */
  function SlotOf(c: char): int {
    c as int - 'A' as int
  }

  /**
    One cell of a consistent game: the map shows terrain; a letter belongs to
    an active player who stands there and the cell holds no gold; '*' lies on
    a room cell; anything else is the map's character and holds no gold.
   */
  predicate CellOk(g: Game, q: Pos)
    requires Wf(g) && InBounds(g.grid, q)
  {
    var c := At(g.grid, q);
    var m := At(g.mapGrid, q).ch;
    && Terrain(m)
    && if IsAlpha(c.ch) then
         && c.gold == 0
         && 0 <= SlotOf(c.ch) < |g.roster|
         && g.roster[SlotOf(c.ch)].active
         && g.roster[SlotOf(c.ch)].pos == q
       else if c.ch == '*' then m == '.'
       else c.ch == m && c.gold == 0
  }

  /**
    One player of a consistent game: the i-th admitted player holds the i-th
    letter; an active one stands inside the grid on a room or passage cell
    showing its letter, and is in a passage exactly when that cell is one.
   */
  predicate PlayerOk(g: Game, i: nat)
    requires Wf(g) && i < |g.roster|
  {
    var p := g.roster[i];
    && SlotOf(p.symbol) == i
    && (p.active ==>
          && InBounds(g.grid, p.pos)
          && At(g.grid, p.pos).ch == p.symbol
          && (At(g.mapGrid, p.pos).ch == '.' || At(g.mapGrid, p.pos).ch == '#')
          && p.inPassage == (At(g.mapGrid, p.pos).ch == '#'))
  }

  /** The invariant between commands, apart from the game-over flag. */
  ghost predicate Core(g: Game) {
    && Wf(g)
    && g.grid.nR > 0 && g.grid.nC > 0
    && SameShape(g.grid, g.mapGrid)
    && g.playerCount == |g.roster| <= MaxPlayers
    && SlotOf(g.nextSymbol) == |g.roster|
    && TotalGold(g.grid) == g.goldRemaining
    && g.goldRemaining + Purses(g.roster) == GoldTotal
    && (forall q :: InBounds(g.grid, q) ==> CellOk(g, q))
    && (forall i :: 0 <= i < |g.roster| ==> PlayerOk(g, i))
  }

  /** A consistent game, which has also stopped playing if no gold remains. */
  ghost predicate Consistent(g: Game) {
    Core(g) && (g.goldRemaining == 0 ==> !g.playing)
  }

  /** Every character of the map file is terrain. */
  predicate MapAlphabet(lines: seq<string>) {
    forall y, x :: 0 <= y < |lines| && 0 <= x < |lines[y]| ==> Terrain(lines[y][x])
  }

  // ---------------------------------------------------------------------------
  // Start-up

  /** The game main starts on a terrain-only map is consistent. */
  lemma InitConsistent(lines: seq<string>, values: seq<nat>, cells: seq<(nat, nat)>)
    requires MapAlphabet(lines)
    ensures Init(lines, values, cells).Started? ==>
      Consistent(Init(lines, values, cells).game) && Purses(Init(lines, values, cells).game.roster) == 0
  {
    if !Init(lines, values, cells).Started? {
      return;
    }
    var map0 := Load(lines);
    LoadHoldsNoGold(lines);
    var gen := GenerateGold(map0, values, cells);
    var g := Init(lines, values, cells).game;
    assert g.grid == gen.grid && g.mapGrid == map0;
    forall q | InBounds(g.grid, q)
      ensures CellOk(g, q)
    {
      assert Terrain(At(map0, q).ch) by {
        if q.x < |lines[q.y]| {
          assert At(map0, q).ch == lines[q.y][q.x];
        }
      }
      if q !in gen.spots {
        assert At(g.grid, q) == At(map0, q);
      } else {
        var k :| 0 <= k < |gen.spots| && gen.spots[k] == q;
        assert At(g.grid, q).ch == '*';
      }
    }
  }

  // ---------------------------------------------------------------------------
  // Refresh

  /** The invariant does not depend on gold_picked_up, the playing flag or the spectator. */
  lemma CoreIgnoresPickup(a: Game, b: Game)
    requires Core(a) && Wf(b)
    requires b.grid == a.grid && b.mapGrid == a.mapGrid && b.goldRemaining == a.goldRemaining
    requires b.playerCount == a.playerCount && b.nextSymbol == a.nextSymbol
    requires |b.roster| == |a.roster|
    requires forall k :: 0 <= k < |a.roster| ==> b.roster[k] == a.roster[k].(pickedUp := b.roster[k].pickedUp)
    ensures Core(b)
  {
    PursesAgree(a.roster, b.roster);
    forall q | InBounds(b.grid, q)
      ensures CellOk(b, q)
    {
      assert CellOk(a, q);
    }
    forall i | 0 <= i < |b.roster|
      ensures PlayerOk(b, i)
    {
      assert PlayerOk(a, i);
    }
  }

  /** Refresh keeps the invariant and stops the game once no gold remains. */
  lemma RefreshKeeps(g: Game)
    requires Core(g)
    ensures Consistent(Refresh(g))
  {
    CoreIgnoresPickup(g, Refresh(g));
  }

  // ---------------------------------------------------------------------------
  // Who stands where

  /** Two active players never share a cell. */
  lemma OneAPlace(g: Game, i: nat, k: nat)
    requires Core(g) && i < |g.roster| && k < |g.roster|
    requires g.roster[i].active && g.roster[k].active && g.roster[i].pos == g.roster[k].pos
    ensures i == k
  {
    assert PlayerOk(g, i) && PlayerOk(g, k);
  }

  /** The symbol index finds the player a letter on the grid belongs to. */
  lemma OccupantFound(g: Game, q: Pos)
    requires Core(g) && InBounds(g.grid, q) && IsAlpha(At(g.grid, q).ch)
    ensures FindSymbol(g.roster, At(g.grid, q).ch) == Some(SlotOf(At(g.grid, q).ch))
  {
    var c := At(g.grid, q).ch;
    assert CellOk(g, q);
    var s := SlotOf(c);
    assert PlayerOk(g, s);
    assert g.roster[s].symbol == c;
    forall k | 0 <= k < s
      ensures g.roster[k].symbol != c
    {
      assert PlayerOk(g, k);
    }
  }

  /** The cell a consistent player moves off shows its letter and holds no gold. */
  lemma StandingCell(g: Game, i: nat)
    requires Core(g) && i < |g.roster| && g.roster[i].active
    ensures InBounds(g.grid, g.roster[i].pos)
    ensures At(g.grid, g.roster[i].pos) == Cell(g.roster[i].symbol, 0)
    ensures IsUpper(g.roster[i].symbol)
  {
    assert PlayerOk(g, i);
    assert CellOk(g, g.roster[i].pos);
  }

  // ---------------------------------------------------------------------------
  // Movement

  /** A corrected step onto a room or passage cell keeps the invariant. */
  lemma StepOntoKeeps(g: Game, i: nat, t: Pos)
    requires Core(g) && i < |g.roster| && g.roster[i].active
    requires CanWalk(g, i, t) && (GetChar(g.grid, t.x, t.y) == '.' || GetChar(g.grid, t.x, t.y) == '#')
    ensures Core(StepOnto(g, i, t, Corrected))
  {
    var h := StepOnto(g, i, t, Corrected);
    var p := g.roster[i];
    StandingCell(g, i);
    assert PlayerOk(g, i) && CellOk(g, t);
    forall k | 0 <= k < |g.roster|
      ensures h.roster[k].purse == g.roster[k].purse
    {
    }
    PursesAgree(g.roster, h.roster);
    forall q | InBounds(h.grid, q)
      ensures CellOk(h, q)
    {
      assert CellOk(g, q);
      if q != t && q != p.pos {
        assert At(h.grid, q) == At(g.grid, q);
        if IsAlpha(At(g.grid, q).ch) {
          var s := SlotOf(At(g.grid, q).ch);
          if s == i {
            assert false;
          }
        }
      }
    }
    forall k | 0 <= k < |h.roster|
      ensures PlayerOk(h, k)
    {
      assert PlayerOk(g, k);
      if k != i && g.roster[k].active {
        var pk := g.roster[k].pos;
        if pk == p.pos {
          OneAPlace(g, i, k);
        }
        assert At(h.grid, pk) == At(g.grid, pk);
      }
    }
  }

  /** A corrected step onto gold keeps the invariant: the pile moves from the grid into the purse. */
  lemma StepOntoGoldKeeps(g: Game, i: nat, t: Pos)
    requires Core(g) && i < |g.roster| && g.roster[i].active
    requires CanWalk(g, i, t) && GetChar(g.grid, t.x, t.y) == '*'
    ensures Core(StepOntoGold(g, i, t, Corrected))
  {
    var h := StepOntoGold(g, i, t, Corrected);
    var p := g.roster[i];
    StandingCell(g, i);
    assert PlayerOk(g, i) && CellOk(g, t);
    PursesUpdate(g.roster, i, h.roster[i]);
    assert h.roster == g.roster[i := h.roster[i]];
    forall q | InBounds(h.grid, q)
      ensures CellOk(h, q)
    {
      assert CellOk(g, q);
      if q != t && q != p.pos {
        assert At(h.grid, q) == At(g.grid, q);
        if IsAlpha(At(g.grid, q).ch) {
          var s := SlotOf(At(g.grid, q).ch);
          if s == i {
            assert false;
          }
        }
      }
    }
    forall k | 0 <= k < |h.roster|
      ensures PlayerOk(h, k)
    {
      assert PlayerOk(g, k);
      if k != i && g.roster[k].active {
        var pk := g.roster[k].pos;
        if pk == p.pos {
          OneAPlace(g, i, k);
        }
        assert At(h.grid, pk) == At(g.grid, pk);
      }
    }
  }

  /** Moving onto another player's letter keeps the invariant: the two trade places. */
  lemma ExchangeKeeps(g: Game, i: nat, t: Pos)
    requires Core(g) && i < |g.roster| && g.roster[i].active
    requires CanWalk(g, i, t) && IsAlpha(GetChar(g.grid, t.x, t.y))
    ensures var j := SlotOf(GetChar(g.grid, t.x, t.y));
      && 0 <= j < |g.roster| && j != i
      && FindSymbol(g.roster, GetChar(g.grid, t.x, t.y)) == Some(j)
      && g.roster[j].active && g.roster[j].pos == t
      && Core(Exchange(g, i, j, t))
  {
    var p := g.roster[i];
    var c := GetChar(g.grid, t.x, t.y);
    var j := SlotOf(c);
    StandingCell(g, i);
    assert CellOk(g, t);
    OccupantFound(g, t);
    if j == i {
      assert false;
    }
    var q := g.roster[j];
    StandingCell(g, j);
    assert PlayerOk(g, i) && PlayerOk(g, j);
    var h := Exchange(g, i, j, t);
    forall k | 0 <= k < |g.roster|
      ensures h.roster[k].purse == g.roster[k].purse
    {
    }
    PursesAgree(g.roster, h.roster);
    forall r | InBounds(h.grid, r)
      ensures CellOk(h, r)
    {
      assert CellOk(g, r);
      if r != t && r != p.pos {
        assert At(h.grid, r) == At(g.grid, r);
        if IsAlpha(At(g.grid, r).ch) {
          var s := SlotOf(At(g.grid, r).ch);
          if s == i || s == j {
            assert false;
          }
        }
      }
    }
    forall k | 0 <= k < |h.roster|
      ensures PlayerOk(h, k)
    {
      assert PlayerOk(g, k);
      if k != i && k != j && g.roster[k].active {
        var pk := g.roster[k].pos;
        if pk == p.pos {
          OneAPlace(g, i, k);
        }
        if pk == t {
          OneAPlace(g, j, k);
        }
        assert At(h.grid, pk) == At(g.grid, pk);
      }
    }
  }

  /**
    In a consistent game a move onto a letter always finds its player, and the
    two trade positions, previous positions and passage flags.
   */
  lemma ExchangeTradesPlaces(g: Game, i: nat, d: Dir, v: Version)
    requires Core(g) && i < |g.roster| && g.roster[i].active && !Refused(g, i, d)
    requires IsAlpha(GetChar(g.grid, Target(g, i, d).x, Target(g, i, d).y))
    ensures Advance(g, i, d, v).Moved?
    ensures var h := Advance(g, i, d, v).game;
      var j := SlotOf(GetChar(g.grid, Target(g, i, d).x, Target(g, i, d).y));
      && 0 <= j < |g.roster| && j != i
      && h.roster[i].pos == g.roster[j].pos && h.roster[j].pos == g.roster[i].pos
      && h.roster[i].prev == g.roster[j].prev && h.roster[j].prev == g.roster[i].prev
      && h.roster[i].inPassage == g.roster[j].inPassage && h.roster[j].inPassage == g.roster[i].inPassage
  {
    StandingCell(g, i);
    ExchangeKeeps(g, i, Target(g, i, d));
  }

  /** A corrected move of an active player never faults and keeps the invariant. */
  lemma AdvanceKeeps(g: Game, i: nat, d: Dir)
    requires Core(g) && i < |g.roster| && g.roster[i].active
    ensures !Advance(g, i, d, Corrected).Fault?
    ensures Advance(g, i, d, Corrected).Moved? ==>
      Core(Advance(g, i, d, Corrected).game) && Advance(g, i, d, Corrected).game.roster[i].active
  {
    var p := g.roster[i];
    var t := Target(g, i, d);
    StandingCell(g, i);
    NextMoves(p.pos, d);
    if !Refused(g, i, d) {
      var c := GetChar(g.grid, t.x, t.y);
      if IsAlpha(c) {
        ExchangeKeeps(g, i, t);
      } else if c == '*' {
        StepOntoGoldKeeps(g, i, t);
      } else {
        StepOntoKeeps(g, i, t);
      }
    }
  }

  /** The same for move with its refresh, which also settles the game-over flag. */
  lemma MoveKeeps(g: Game, i: nat, d: Dir)
    requires Core(g) && i < |g.roster| && g.roster[i].active
    ensures !Move(g, i, d, Corrected).Fault?
    ensures Move(g, i, d, Corrected).Moved? ==>
      Consistent(Move(g, i, d, Corrected).game) && Move(g, i, d, Corrected).game.roster[i].active
    ensures Move(g, i, d, Corrected).Moved? ==> var t := Target(g, i, d);
      GetChar(Move(g, i, d, Corrected).game.grid, t.x, t.y) == g.roster[i].symbol
  {
    StandingCell(g, i);
    AdvanceKeeps(g, i, d);
    if Advance(g, i, d, Corrected).Moved? {
      RefreshKeeps(Advance(g, i, d, Corrected).game);
    }
  }

  /** A corrected run of an active player never faults and ends in a consistent state. */
  lemma {:induction false} RunKeeps(g: Game, i: nat, d: Dir)
    requires Consistent(g) && i < |g.roster| && g.roster[i].active
    ensures Run(g, i, d, Corrected).Ran?
    ensures Consistent(Run(g, i, d, Corrected).game)
    ensures Run(g, i, d, Corrected).game.roster[i].active
    decreases Budget(g, i, d)
  {
    MoveKeeps(g, i, d);
    if Move(g, i, d, Corrected).Moved? {
      var h := Move(g, i, d, Corrected).game;
      MoveSpendsBudget(g, i, d, Corrected);
      RunKeeps(h, i, d);
    }
  }

  // ---------------------------------------------------------------------------
  // Commands

  /** Admitting a player on a room or gold cell, and advancing the counters, keeps the invariant. */
  lemma AdmitKeeps(g: Game, from: Addr, name: string, pos: Pos)
    requires Core(g) && |g.roster| < MaxPlayers && InBounds(g.grid, pos)
    requires At(g.grid, pos).ch == '.' || At(g.grid, pos).ch == '*'
    ensures Core(Admit(Corrected, g, from, name, pos).(nextSymbol := NextSymbol(g.nextSymbol), playerCount := g.playerCount + 1))
  {
    var k := |g.roster|;
    var h1 := Admit(Corrected, g, from, name, pos);
    var a := h1.(nextSymbol := NextSymbol(g.nextSymbol), playerCount := g.playerCount + 1);
    assert CellOk(g, pos);
    PursesAppend(g.roster, h1.roster[k]);
    assert h1.roster == g.roster + [h1.roster[k]] by {
      assert h1.roster == h1.roster[..k] + [h1.roster[k]];
    }
    forall q | InBounds(a.grid, q)
      ensures CellOk(a, q)
    {
      assert CellOk(g, q);
      if q != pos {
        assert At(a.grid, q) == At(g.grid, q);
      }
    }
    forall j | 0 <= j < |a.roster|
      ensures PlayerOk(a, j)
    {
      if j < k {
        assert PlayerOk(g, j);
        if g.roster[j].active {
          assert At(a.grid, g.roster[j].pos) == At(g.grid, g.roster[j].pos);
        }
      }
    }
  }

  /** Admitting a player into a roster with room keeps the invariant. */
  lemma AddPlayerKeeps(g: Game, from: Addr, name: string, draws: seq<(nat, nat)>)
    requires Consistent(g) && |g.roster| < MaxPlayers
    ensures !AddPlayer(Corrected, g, from, name, draws).Crashed?
    ensures AddPlayer(Corrected, g, from, name, draws).Handled? ==> Consistent(AddPlayer(Corrected, g, from, name, draws).game)
  {
    match GeneratePosition(g.grid, PlacementSymbol(g), draws)
    case Exhausted =>
    case Found(pos, rest) =>
      var h1 := Admit(Corrected, g, from, name, pos);
      var a := h1.(nextSymbol := NextSymbol(g.nextSymbol), playerCount := g.playerCount + 1);
      AdmitKeeps(g, from, name, pos);
      CoreIgnoresPickup(a, AddPlayer(Corrected, g, from, name, draws).game);
  }

  /** A corrected KEY Q keeps the invariant. */
  lemma QuitKeeps(g: Game, from: Addr, draws: seq<(nat, nat)>)
    requires Consistent(g)
    ensures Quit(Corrected, g, from, draws).Handled?
    ensures Consistent(Quit(Corrected, g, from, draws).game)
  {
    if from.port in g.byPort && g.roster[g.byPort[from.port]].active {
      var i := g.byPort[from.port];
      var p := g.roster[i];
      StandingCell(g, i);
      assert PlayerOk(g, i);
      var terrain := GetChar(g.mapGrid, p.pos.x, p.pos.y);
      var h := g.(roster := g.roster[i := p.(active := false)], grid := SetChar(g.grid, terrain, p.pos).0);
      PursesUpdate(g.roster, i, p.(active := false));
      forall q | InBounds(h.grid, q)
        ensures CellOk(h, q)
      {
        assert CellOk(g, q);
        if q != p.pos {
          assert At(h.grid, q) == At(g.grid, q);
          if IsAlpha(At(g.grid, q).ch) && SlotOf(At(g.grid, q).ch) == i {
            assert false;
          }
        }
      }
      forall k | 0 <= k < |h.roster|
        ensures PlayerOk(h, k)
      {
        assert PlayerOk(g, k);
        if k != i && g.roster[k].active {
          if g.roster[k].pos == p.pos {
            OneAPlace(g, i, k);
          }
          assert At(h.grid, g.roster[k].pos) == At(g.grid, g.roster[k].pos);
        }
      }
      assert Core(h);
      RefreshKeeps(h);
    }
  }

  /** SPECTATE keeps the invariant. */
  lemma SpectateKeeps(g: Game, from: Addr, draws: seq<(nat, nat)>)
    requires Consistent(g)
    ensures Consistent(Spectate(g, from, draws).game)
  {
    CoreIgnoresPickup(g, g.(spectator := Some(from)));
    RefreshKeeps(g.(spectator := Some(from)));
  }

  /** A corrected movement key never crashes and keeps the invariant. */
  lemma KeyMovementKeeps(g: Game, from: Addr, d: Dir, repeat: bool, draws: seq<(nat, nat)>)
    requires Consistent(g)
    ensures KeyMovement(Corrected, g, from, d, repeat, draws).Handled?
    ensures Consistent(KeyMovement(Corrected, g, from, d, repeat, draws).game)
  {
    if from.port in g.byPort {
      var i := g.byPort[from.port];
      if g.roster[i].active {
        if repeat {
          RunKeeps(g, i, d);
        } else {
          MoveKeeps(g, i, d);
        }
      }
    }
  }

  /**
    The corrected server never reaches undefined behaviour from a consistent
    state, and every datagram it handles leaves the state consistent.
   */
  lemma HandleKeeps(g: Game, from: Addr, raw: string, draws: seq<(nat, nat)>)
    requires Consistent(g)
    ensures !Handle(Corrected, g, from, raw, draws).Crashed?
    ensures Handle(Corrected, g, from, raw, draws).Handled? ==>
      Consistent(Handle(Corrected, g, from, raw, draws).game)
  {
    var (cmd, rest) := SplitCommand(Text(raw));
    if cmd == "PLAY" {
      if !RosterFull(Corrected, g) && rest != [] {
        AddPlayerKeeps(g, from, Sanitize(rest), draws);
      }
    } else if cmd == "SPECTATE" {
      SpectateKeeps(g, from, draws);
    } else if cmd == "KEY" {
      var c := KeyOf(rest);
      if c == 'Q' {
        QuitKeeps(g, from, draws);
      } else if g.spectator != Some(from) && KeyMove(c).Some? {
        var (d, repeat) := KeyMove(c).value;
        KeyMovementKeeps(g, from, d, repeat, draws);
      }
    }
  }

  /** Gold is conserved: what is not on the grid is in the purses. */
  lemma Conservation(g: Game)
    requires Consistent(g)
    ensures TotalGold(g.grid) + Purses(g.roster) == GoldTotal
  {
  }

  /** Once the last gold is picked up, the message handler ends the loop. */
  lemma GameOverEndsLoop(g: Game)
    requires Consistent(g) && g.goldRemaining == 0
    ensures LoopEnds(g)
  {
  }

}

=== FILE: ctype.dfy ===
/**
  The <ctype.h> character classes the server relies on, in the "C" locale.
  Characters outside 7-bit ASCII belong to none of them.
 */
module Ctype {

  /** isgraph: printable and not a space. */
  predicate IsGraph(c: char) {
    '!' <= c <= '~'
  }

  /** isblank: space or horizontal tab. */
  predicate IsBlank(c: char) {
    c == ' ' || c == '\t'
  }

  /** isspace: space, \t, \n, \v, \f, \r. */
  predicate IsSpace(c: char) {
    c == ' ' || c == '\t' || c == '\n' || c == '\r' || c as int == 11 || c as int == 12
  }

  predicate IsUpper(c: char) {
    'A' <= c <= 'Z'
  }

  /** isalpha */
  predicate IsAlpha(c: char) {
    IsUpper(c) || 'a' <= c <= 'z'
  }

}

=== FILE: findings.dfy ===
/**
  Inputs on which the server as written misbehaves, each next to what the
  corrected transitions do on the same input.
 */
module Findings {
  import opened Options
  import opened Ctype
  import opened Grids
  import opened Protocol
  import opened Gold
  import opened State
  import opened Movement
  import opened Server
  import opened Consistency

  /** A one-row grid showing `chars`; every '*' holds `pile` gold. */
  function Strip(chars: string, pile: int): (g: Grid)
    ensures Valid(g) && g.nR == 1 && g.nC == |chars|
    ensures forall x :: 0 <= x < |chars| ==>
      At(g, Pos(x, 0)) == Cell(chars[x], if chars[x] == '*' then pile else 0)
  {
    Grid(1, |chars|, [seq(|chars|, x requires 0 <= x < |chars| => Cell(chars[x], if chars[x] == '*' then pile else 0))], 0)
  }

  /** The gold of a one-row grid with a single pile. */
  lemma StripGold(chars: string, pile: int, x: nat)
    requires x < |chars| && chars[x] == '*'
    requires forall k :: 0 <= k < |chars| && k != x ==> chars[k] != '*'
    ensures TotalGold(Strip(chars, pile)) == pile
  {
    var row := Strip(chars, pile).rows[0];
    forall k | 0 <= k < |row|
      ensures row[k].gold == (if k == x then pile else 0)
    {
      assert row[k] == At(Strip(chars, pile), Pos(k, 0));
    }
    OnePileRow(row, pile, x);
    var rows := Strip(chars, pile).rows;
    assert rows == [row] && rows[1..] == [];
    assert RowsGold(rows) == RowGold(row) + RowsGold([]);
  }

  lemma {:induction false} OnePileRow(row: seq<Cell>, pile: int, x: nat)
    requires x < |row|
    requires forall k :: 0 <= k < |row| ==> row[k].gold == (if k == x then pile else 0)
    ensures RowGold(row) == pile
  {
    if x == 0 {
      RowGoldZero(row[1..]);
    } else {
      OnePileRow(row[1..], pile, x - 1);
    }
  }

  /** A player admitted under sym from port, standing where it was placed. */
  function Standing(sym: char, port: nat, pos: Pos, inPassage: bool, active: bool): (p: Player)
    ensures p.symbol == sym && p.addr.port == port && p.pos == pos && p.prev == pos
    ensures p.purse == 0 && p.inPassage == inPassage && p.active == active
  {
    Player([sym], sym, Addr(0, port), 0, 0, active, pos, pos, inPassage)
  }

  // ---------------------------------------------------------------------------
  // The 27th player

  /**
    With 26 players the roster check as written still admits a player. Its
    symbol is '[', which is no letter: the cell it is placed on shows neither
    a player nor the map, and the invariant is lost. Corrected, the sender is
    told the game is full.
   */
  lemma TwentySeventhPlayer(g: Game, from: Addr, name: string, draws: seq<(nat, nat)>)
    requires Consistent(g) && |g.roster| == MaxPlayers && name != []
    ensures Play(AsWritten, g, from, name, draws) == AddPlayer(AsWritten, g, from, Sanitize(name), draws)
    ensures AddPlayer(AsWritten, g, from, Sanitize(name), draws).Handled? ==>
      var h := AddPlayer(AsWritten, g, from, Sanitize(name), draws).game;
      && h.roster[MaxPlayers].symbol == '['
      && !IsAlpha(h.roster[MaxPlayers].symbol)
      && InBounds(h.grid, h.roster[MaxPlayers].pos)
      && !CellOk(h, h.roster[MaxPlayers].pos)
    ensures Play(Corrected, g, from, name, draws) == Handled(g, [Sent(from, QuitFull)], draws)
  {
    var r := AddPlayer(AsWritten, g, from, Sanitize(name), draws);
    if r.Handled? {
      var h := r.game;
      var pos := h.roster[MaxPlayers].pos;
      assert g.nextSymbol == '[';
      assert InBounds(g.grid, pos) && At(h.grid, pos).ch == '[';
      assert CellOk(g, pos);
      assert At(h.mapGrid, pos).ch != '[';
    }
  }

  // ---------------------------------------------------------------------------
  // The pile array

  /**
    generate_gold declares its pile array with n - 1 entries and then writes
    n of them: the loop that sets them to 1 runs off the end. MakePiles uses
    an array of n entries.
   */
  lemma PileArrayTooShort(n: nat)
    requires n > 0
    ensures FillOnes(seq(n - 1, _ => 0), n).None?
    ensures FillOnes(seq(n, _ => 0), n).Some?
  {
  }

  // ---------------------------------------------------------------------------
  // A command word with nothing after it

  /**
    SPECTATE is a whole message with no whitespace in it, so the scan for the
    end of the command word runs past the end of the text. Corrected, the
    word ends with the text and the spectator is admitted.
   */
  lemma BareSpectate(g: Game, from: Addr, draws: seq<(nat, nat)>)
    requires Wf(g)
    ensures Dispatch(AsWritten, g, from, "SPECTATE", draws).Crashed?
    ensures Dispatch(Corrected, g, from, "SPECTATE", draws) == Spectate(g, from, draws)
  {
    var msg := "SPECTATE";
    forall i | 0 <= i < |msg|
      ensures !IsSpace(msg[i])
    {
    }
  }

  // ---------------------------------------------------------------------------
  // KEY Q from the spectator

  /**
    The spectator is never registered as a player, so its KEY Q looks up
    nothing and the server dereferences NULL. Corrected, it is thanked for
    watching and nothing else happens.
   */
  lemma SpectatorQuit(g: Game, from: Addr, draws: seq<(nat, nat)>)
    requires Wf(g) && g.spectator == Some(from) && from.port !in g.byPort
    ensures Key(AsWritten, g, from, "Q", draws).Crashed?
    ensures Key(Corrected, g, from, "Q", draws) == Handled(g, [Sent(from, QuitWatching)], draws)
  {
  }

  // ---------------------------------------------------------------------------
  // Entering a passage straight from the placement cell

  /**
    Player A was just placed on the room cell (1,0) of the map "..#"; all the
    gold lies at (0,0).
   */
  function Arrival(): (g: Game)
    ensures Wf(g) && |g.roster| == 1
  {
    Game(true, GoldTotal, 1, 1, 'B', Strip("*A#", GoldTotal), Strip("..#", 0),
         [Standing('A', 1, Pos(1, 0), false, true)], map[1 := 0], None)
  }

  lemma ArrivalConsistent()
    ensures Consistent(Arrival())
  {
    var g := Arrival();
    StripGold("*A#", GoldTotal, 0);
    forall q | InBounds(g.grid, q)
      ensures CellOk(g, q)
    {
      assert q == Pos(0, 0) || q == Pos(1, 0) || q == Pos(2, 0);
    }
    assert PlayerOk(g, 0);
  }

  /**
    A move right from the room cell (1,0), where the player was just placed,
    into the passage at (2,0). As written point_status reads the mover's own
    cell as both previous and current position, reports no entry, and the
    room cell keeps the '#' swapped onto it; corrected it shows '.' again and
    the player is in the passage.
   */
  lemma ArrivalSteps(v: Version, g: Game) returns (h: Game)
    requires Wf(g) && |g.roster| == 1 && g.grid.nR == 1 && g.grid.nC == 3
    requires g.roster[0].pos.x == 1 && g.roster[0].pos.y == 0 && !g.roster[0].inPassage
    requires g.roster[0].prev.x == 1 && g.roster[0].prev.y == 0
    requires GetChar(g.grid, 2, 0) == '#' && GetChar(g.mapGrid, 1, 0) == '.'
    ensures Move(g, 0, Right, v) == Moved(h)
    ensures Wf(h) && |h.roster| == 1 && h.mapGrid == g.mapGrid
    ensures GetChar(h.grid, 1, 0) == (if v == Corrected then '.' else '#')
    ensures h.roster[0].inPassage == (v == Corrected)
    ensures v == AsWritten ==> !Core(h)
    ensures v == Corrected && Consistent(g) && g.roster[0].active ==> Consistent(h)
  {
    assert DX(Right) == 1 && DY(Right) == 0;
    var t := Target(g, 0, Right);
    assert t.x == 2;
    assert t.y == 0;
    var p := g.roster[0];
    var swapped := Swap(g.grid, t, p.pos);
    assert PointStatus(swapped, p.prev, p.pos) == 0;
    var s := StepOnto(g, 0, t, v);
    h := Refresh(s);
    if v == AsWritten {
      assert InBounds(h.grid, Pos(1, 0)) && !CellOk(h, Pos(1, 0));
    }
    if v == Corrected && Consistent(g) && g.roster[0].active {
      MoveKeeps(g, 0, Right);
    }
  }

  /**
    As written, A's previous position is its current one, so point_status
    reads '#' at both and reports no entry: the room cell A leaves is left
    showing '#' and A is not recorded as being in the passage.
   */
  lemma EnterPassageAsWritten()
    ensures Move(Arrival(), 0, Right, AsWritten).Moved?
    ensures var h := Move(Arrival(), 0, Right, AsWritten).game;
      && GetChar(h.grid, 1, 0) == '#' && GetChar(h.mapGrid, 1, 0) == '.'
      && !h.roster[0].inPassage
      && !Core(h)
  {
    var g := Arrival();
    assert GetChar(g.grid, 2, 0) == '#' && GetChar(g.mapGrid, 1, 0) == '.';
    var h := ArrivalSteps(AsWritten, g);
  }

  /** Corrected, the room cell shows '.' again, A is in the passage, and the invariant holds. */
  lemma EnterPassageCorrected()
    ensures Move(Arrival(), 0, Right, Corrected).Moved?
    ensures var h := Move(Arrival(), 0, Right, Corrected).game;
      && GetChar(h.grid, 1, 0) == '.' && h.roster[0].inPassage
      && Consistent(h)
  {
    var g := Arrival();
    assert GetChar(g.grid, 2, 0) == '#' && GetChar(g.mapGrid, 1, 0) == '.';
    ArrivalConsistent();
    var h := ArrivalSteps(Corrected, g);
  }

  // ---------------------------------------------------------------------------
  // Picking up gold from a passage

  /** Player A stands in the passage cell (0,0) of the map "#."; all the gold lies at (1,0). */
  function Lurker(): (g: Game)
    ensures Wf(g) && |g.roster| == 1
  {
    Game(true, GoldTotal, 1, 1, 'B', Strip("A*", GoldTotal), Strip("#.", 0),
         [Standing('A', 1, Pos(0, 0), true, true)], map[1 := 0], None)
  }

  lemma LurkerConsistent()
    ensures Consistent(Lurker())
  {
    var g := Lurker();
    StripGold("A*", GoldTotal, 1);
    forall q | InBounds(g.grid, q)
      ensures CellOk(g, q)
    {
      assert q == Pos(0, 0) || q == Pos(1, 0);
    }
    assert PlayerOk(g, 0);
  }

  /**
    A move right from the passage cell (0,0) onto a pile at (1,0). As written
    pickup_gold leaves '.' on the passage cell and the player keeps its
    passage flag; corrected the cell shows '#' again and the flag is cleared.
    Either way the pile moves into the purse.
   */
  lemma LurkerSteps(v: Version, g: Game) returns (h: Game)
    requires Wf(g) && |g.roster| == 1 && g.grid.nR == 1 && g.grid.nC == 2
    requires g.roster[0].pos.x == 0 && g.roster[0].pos.y == 0 && g.roster[0].inPassage
    requires GetChar(g.grid, 1, 0) == '*' && GetGold(g.grid, 1, 0) == GoldTotal && g.roster[0].purse == 0
    requires GetChar(g.mapGrid, 0, 0) == '#'
    ensures Move(g, 0, Right, v) == Moved(h)
    ensures Wf(h) && |h.roster| == 1 && h.mapGrid == g.mapGrid
    ensures GetChar(h.grid, 0, 0) == (if v == Corrected then '#' else '.')
    ensures h.roster[0].inPassage == (v == AsWritten)
    ensures h.roster[0].purse == GoldTotal
    ensures v == AsWritten ==> !Core(h)
    ensures v == Corrected && Consistent(g) && g.roster[0].active ==> Consistent(h)
  {
    assert DX(Right) == 1 && DY(Right) == 0;
    var t := Target(g, 0, Right);
    assert t.x == 1;
    assert t.y == 0;
    var s := StepOntoGold(g, 0, t, v);
    h := Refresh(s);
    if v == AsWritten {
      assert InBounds(h.grid, Pos(0, 0)) && !CellOk(h, Pos(0, 0));
    }
    if v == Corrected && Consistent(g) && g.roster[0].active {
      MoveKeeps(g, 0, Right);
    }
  }

  /**
    As written, pickup_gold always writes '.' on the cell the player leaves,
    so the passage cell becomes a room cell, and the player keeps its passage
    flag on the room cell it reaches.
   */
  lemma GoldFromPassageAsWritten()
    ensures Move(Lurker(), 0, Right, AsWritten).Moved?
    ensures var h := Move(Lurker(), 0, Right, AsWritten).game;
      && GetChar(h.grid, 0, 0) == '.' && GetChar(h.mapGrid, 0, 0) == '#'
      && h.roster[0].inPassage && GetChar(h.mapGrid, 1, 0) == '.'
      && !Core(h)
  {
    var g := Lurker();
    assert GetChar(g.grid, 1, 0) == '*' && GetGold(g.grid, 1, 0) == GoldTotal;
    assert GetChar(g.mapGrid, 0, 0) == '#' && GetChar(g.mapGrid, 1, 0) == '.';
    var h := LurkerSteps(AsWritten, g);
  }

  /** Corrected, the passage cell shows '#' again and the invariant holds. */
  lemma GoldFromPassageCorrected()
    ensures Move(Lurker(), 0, Right, Corrected).Moved?
    ensures var h := Move(Lurker(), 0, Right, Corrected).game;
      && GetChar(h.grid, 0, 0) == '#' && !h.roster[0].inPassage
      && h.roster[0].purse == GoldTotal
      && Consistent(h)
  {
    var g := Lurker();
    assert GetChar(g.grid, 1, 0) == '*' && GetGold(g.grid, 1, 0) == GoldTotal;
    assert GetChar(g.mapGrid, 0, 0) == '#';
    assert g.roster[0].purse == 0;
    LurkerConsistent();
    var h := LurkerSteps(Corrected, g);
  }

  // ---------------------------------------------------------------------------
  // Keys from a player who has quit

  /**
    A quit at (0,0), registered from port 1; B, from port 2, has since walked
    onto that cell. The map is "..." and all the gold lies at (2,0).
   */
  function Departed(): (g: Game)
    ensures Wf(g) && |g.roster| == 2
  {
    Game(true, GoldTotal, 1, 2, 'C', Strip("B.*", GoldTotal), Strip("...", 0),
         [Standing('A', 1, Pos(0, 0), false, false), Standing('B', 2, Pos(0, 0), false, true)],
         map[1 := 0, 2 := 1], None)
  }

  lemma DepartedConsistent()
    ensures Consistent(Departed())
  {
    var g := Departed();
    StripGold("B.*", GoldTotal, 2);
    forall q | InBounds(g.grid, q)
      ensures CellOk(g, q)
    {
      assert q == Pos(0, 0) || q == Pos(1, 0) || q == Pos(2, 0);
    }
    assert PlayerOk(g, 0) && PlayerOk(g, 1);
  }

  /**
    As written, A's second KEY Q is processed like the first: the map's
    character is written at A's old position, erasing B's letter.
   */
  lemma RepeatedQuitAsWritten()
    ensures Key(AsWritten, Departed(), Addr(0, 1), "Q", []).Handled?
    ensures var h := Key(AsWritten, Departed(), Addr(0, 1), "Q", []).game;
      && GetChar(h.grid, 0, 0) == '.'
      && h.roster[1].active && h.roster[1].pos == Pos(0, 0)
      && !Core(h)
  {
    var h := Key(AsWritten, Departed(), Addr(0, 1), "Q", []).game;
    assert !PlayerOk(h, 1);
  }

  /**
    As written, a movement key from A moves A's position, and the swap drags
    whatever lies at A's old position, B's letter, along with it.
   */
  lemma DepartedMoveAsWritten()
    ensures Key(AsWritten, Departed(), Addr(0, 1), "l", []).Handled?
    ensures var h := Key(AsWritten, Departed(), Addr(0, 1), "l", []).game;
      && GetChar(h.grid, 1, 0) == 'B'
      && h.roster[1].active && h.roster[1].pos == Pos(0, 0)
      && !Core(h)
  {
    var g := Departed();
    assert GetChar(g.grid, 1, 0) == '.';
    assert KeyMove('l') == Some((Right, false));
    var h := Key(AsWritten, g, Addr(0, 1), "l", []).game;
    assert !CellOk(h, Pos(1, 0));
  }

  /** Corrected, keys from a player who has quit change nothing. */
  lemma DepartedCorrected()
    ensures Key(Corrected, Departed(), Addr(0, 1), "Q", []) == Handled(Departed(), [Sent(Addr(0, 1), QuitPlaying)], [])
    ensures Key(Corrected, Departed(), Addr(0, 1), "l", []) == Handled(Departed(), [], [])
    ensures Consistent(Departed())
  {
    assert KeyMove('l') == Some((Right, false));
    DepartedConsistent();
  }

  // ---------------------------------------------------------------------------
  // The pile count after a pickup

  /**
    The game at start-up on the map "..........": ten piles of 25, one on
    every room cell, so room cells do not outnumber piles and a newcomer is
    placed on gold.
   */
  function Hoard(): (g: Game)
    ensures Wf(g) && g.roster == [] && g.pileCount == 10 && RoomSpot(g.grid) == 10
  {
    Game(true, GoldTotal, 10, 0, 'A', Strip("**********", 25).(roomSpots := 10),
         Strip("..........", 0).(roomSpots := 10), [], map[], None)
  }

  /** Player A is admitted on the pile at (0,0), picking it up. */
  lemma HoardAdmitted(v: Version)
    ensures var r := AddPlayer(v, Hoard(), Addr(0, 1), "a", [(0, 0)]);
      && r.Handled? && |r.game.roster| == 1 && r.game.byPort == map[1 := 0]
      && r.game.roster[0].pos == Pos(0, 0) && !r.game.roster[0].inPassage
      && GetChar(r.game.grid, 0, 0) == 'A'
      && At(r.game.grid, Pos(1, 0)) == Cell('*', 25)
      && r.game.pileCount == (if v == Corrected then 9 else 10)
  {
    var g := Hoard();
    assert At(g.grid, Pos(0, 0)) == Cell('*', 25) && At(g.grid, Pos(1, 0)) == Cell('*', 25);
    assert PlacementSymbol(g) == '*';
    assert Hits(g.grid, '*', (0, 0));
    assert GeneratePosition(g.grid, '*', [(0, 0)]) == Found(Pos(0, 0), []);
  }

  /** Then A steps right onto the pile at (1,0), leaving a room cell behind. */
  function TwoPilesTaken(v: Version): (r: MoveResult)
  {
    match AddPlayer(v, Hoard(), Addr(0, 1), "a", [(0, 0)])
    case Handled(h, _, _) => if |h.roster| == 1 then Move(h, 0, Right, v) else Fault
    case _ => Fault
  }

  /** From A's place on (0,0), the step right onto the pile at (1,0), before refresh. */
  lemma PileStep(v: Version, h: Game) returns (s: Game)
    requires Wf(h) && |h.roster| == 1 && h.grid.nR == 1 && h.grid.nC == 10
    requires h.roster[0].pos.x == 0 && h.roster[0].pos.y == 0 && !h.roster[0].inPassage
    requires GetChar(h.grid, 1, 0) == '*' && GetGold(h.grid, 1, 0) == 25
    ensures Advance(h, 0, Right, v) == Moved(s)
    ensures Wf(s) && |s.roster| == 1 && SameShape(h.grid, s.grid)
    ensures GetChar(s.grid, 0, 0) == '.'
    ensures s.pileCount == (if v == Corrected then h.pileCount - 1 else h.pileCount)
  {
    assert DX(Right) == 1 && DY(Right) == 0;
    var t := Target(h, 0, Right);
    assert t.x == 1;
    assert t.y == 0;
    s := StepOntoGold(h, 0, t, v);
  }

  lemma TwoPilesTakenShape(v: Version)
    ensures var r := TwoPilesTaken(v);
      && r.Moved? && Wf(r.game) && |r.game.roster| == 1
      && GetChar(r.game.grid, 0, 0) == '.'
      && r.game.pileCount == (if v == Corrected then 8 else 10)
      && RoomSpot(r.game.grid) == 10
      && r.game.grid.nR == 1 && r.game.grid.nC == 10
  {
    HoardAdmitted(v);
    var h := AddPlayer(v, Hoard(), Addr(0, 1), "a", [(0, 0)]).game;
    assert h.grid.nR == 1 && h.grid.nC == 10 && RoomSpot(h.grid) == 10;
    var s := PileStep(v, h);
    assert TwoPilesTaken(v) == Moved(Refresh(s));
  }

  /**
    As written gold_pile_number still says ten, so the next newcomer is again
    sent to a gold cell: the draw naming the free room cell (0,0) is rejected.
   */
  lemma PilesNotCountedAsWritten()
    ensures TwoPilesTaken(AsWritten).Moved?
    ensures var h := TwoPilesTaken(AsWritten).game;
      && GetChar(h.grid, 0, 0) == '.' && h.pileCount == 10 && PlacementSymbol(h) == '*'
      && AddPlayer(AsWritten, h, Addr(0, 2), "b", [(0, 0)]).Stalled?
  {
    TwoPilesTakenShape(AsWritten);
    var h := TwoPilesTaken(AsWritten).game;
    assert !Hits(h.grid, '*', (0, 0));
  }

  /**
    Corrected, each pickup takes one pile off the count; with eight piles left
    the newcomer is placed on the free room cell (0,0).
   */
  lemma PilesCountedCorrected()
    ensures TwoPilesTaken(Corrected).Moved?
    ensures var h := TwoPilesTaken(Corrected).game;
      && GetChar(h.grid, 0, 0) == '.' && h.pileCount == 8 && PlacementSymbol(h) == '.'
      && AddPlayer(Corrected, h, Addr(0, 2), "b", [(0, 0)]).Handled?
      && AddPlayer(Corrected, h, Addr(0, 2), "b", [(0, 0)]).game.roster[1].pos == Pos(0, 0)
  {
    TwoPilesTakenShape(Corrected);
    var h := TwoPilesTaken(Corrected).game;
    assert Hits(h.grid, '.', (0, 0));
    assert GeneratePosition(h.grid, '.', [(0, 0)]) == Found(Pos(0, 0), []);
  }

}

=== FILE: gold.dfy ===
/**
  Gold generation at start-up (generate_gold) and the rejection sampler that
  finds a cell showing a given character (generate_position).

  rand() is an oracle: `values` are the single rand() results in the order
  they are asked for, `cells` the (rand_x, rand_y) pairs the sampler draws.
  A finite oracle can run dry where the program would keep drawing; the
  model reports that instead of looping.
 */
module Gold {
  import opened Options
  import opened Grids

  const GoldTotal := 250
  const GoldMinNumPiles := 10
  const GoldMaxNumPiles := 30

  /** The cell a pair of rand() results names: (rand() % nC, rand() % nR). */
  function Drawn(g: Grid, d: (nat, nat)): Pos
    requires g.nC > 0 && g.nR > 0
  {
    Pos(d.0 % g.nC, d.1 % g.nR)
  }

  predicate Hits(g: Grid, sym: char, d: (nat, nat))
    requires Valid(g) && g.nC > 0 && g.nR > 0
  {
    var p := Drawn(g, d);
    GetChar(g, p.x, p.y) == sym
  }

  datatype Draw = Found(pos: Pos, rest: seq<(nat, nat)>) | Exhausted

  /**
    generate_position: draws cells until one shows sym. The answer is the first
    drawn cell that does, together with the draws left over; Exhausted means no
    supplied draw names such a cell.
   */
  function GeneratePosition(g: Grid, sym: char, draws: seq<(nat, nat)>): (r: Draw)
    requires Valid(g) && g.nC > 0 && g.nR > 0
    ensures r.Found? ==> InBounds(g, r.pos) && At(g, r.pos).ch == sym
    ensures r.Found? ==>
      && |r.rest| < |draws|
      && r.rest == draws[|draws| - |r.rest|..]
      && r.pos == Drawn(g, draws[|draws| - |r.rest| - 1])
      && forall j :: 0 <= j < |draws| - |r.rest| - 1 ==> !Hits(g, sym, draws[j])
    ensures r.Exhausted? <==> forall j :: 0 <= j < |draws| ==> !Hits(g, sym, draws[j])
    decreases |draws|
  {
    if draws == [] then Exhausted
    else if Hits(g, sym, draws[0]) then Found(Drawn(g, draws[0]), draws[1..])
    else
      var r := GeneratePosition(g, sym, draws[1..]);
      assert forall j :: 1 <= j < |draws| ==> draws[j] == draws[1..][j - 1];
      r
  }

  function Sum(s: seq<int>): int {
    if s == [] then 0 else s[0] + Sum(s[1..])
  }

  lemma {:induction false} SumUpdate(s: seq<int>, k: int, v: int)
    requires 0 <= k < |s|
    ensures Sum(s[k := v]) == Sum(s) - s[k] + v
  {
    if k == 0 {
      assert s[k := v][1..] == s[1..];
    } else {
      SumUpdate(s[1..], k - 1, v);
      assert s[k := v][1..] == s[1..][k - 1 := v];
    }
  }

  lemma {:induction false} SumOfOnes(s: seq<int>)
    requires forall k :: 0 <= k < |s| ==> s[k] == 1
    ensures Sum(s) == |s|
  {
    if s != [] {
      SumOfOnes(s[1..]);
    }
  }

  /**
    The loop that sets every one of the first n entries of the pile array to 1,
    in index order. It fails (None) exactly when some index it writes lies
    outside the array.
   */
  function FillOnes(arr: seq<int>, n: nat): (r: Option<seq<int>>)
    ensures r.Some? <==> n <= |arr|
    ensures r.Some? ==> |r.value| == |arr|
    ensures r.Some? ==> forall k :: 0 <= k < n ==> r.value[k] == 1
    ensures r.Some? ==> forall k :: n <= k < |arr| ==> r.value[k] == arr[k]
  {
    if n == 0 then Some(arr)
    else
      match FillOnes(arr, n - 1)
      case None => None
      case Some(a) => if n - 1 < |a| then Some(a[n - 1 := 1]) else None
  }

  /** How many of the draws select pile k of n, that is, leave remainder k modulo n. */
  function Selecting(draws: seq<nat>, n: nat, k: nat): nat
    requires n > 0
  {
    if draws == [] then 0
    else (if draws[0] % n == k then 1 else 0) + Selecting(draws[1..], n, k)
  }

  /** Adds one unit to pile (d % n) for every draw d, in order. */
  function Spread(piles: seq<int>, draws: seq<nat>): (r: seq<int>)
    requires |piles| > 0
    ensures |r| == |piles|
    ensures forall k :: 0 <= k < |r| ==> r[k] == piles[k] + Selecting(draws, |piles|, k)
    ensures Sum(r) == Sum(piles) + |draws|
    ensures forall k :: 0 <= k < |r| ==> r[k] >= piles[k]
    decreases |draws|
  {
    if draws == [] then piles
    else
      var k := draws[0] % |piles|;
      SumUpdate(piles, k, piles[k] + 1);
      Spread(piles[k := piles[k] + 1], draws[1..])
  }

  /** Gold lies only on cells that show '*'. */
  ghost predicate GoldOnlyOnPiles(g: Grid)
    requires Valid(g)
  {
    forall q :: InBounds(g, q) && At(g, q).ch != '*' ==> At(g, q).gold == 0
  }

  /**
    h is g with pile k placed on spots[k], for every k: a distinct cell that
    showed '.' in g and now shows '*' holding that pile; no other cell changes.
   */
  ghost predicate PlacedOn(g: Grid, h: Grid, piles: seq<int>, spots: seq<Pos>)
    requires Valid(g) && Valid(h)
  {
    && |spots| == |piles|
    && (forall k :: 0 <= k < |spots| ==>
          InBounds(g, spots[k]) && At(g, spots[k]).ch == '.' && InBounds(h, spots[k])
          && At(h, spots[k]) == Cell('*', piles[k]))
    && (forall k, l :: 0 <= k < l < |spots| ==> spots[k] != spots[l])
    && (forall q :: InBounds(g, q) && InBounds(h, q) && q !in spots ==> At(h, q) == At(g, q))
  }

  datatype Placed = Placed(grid: Grid, spots: seq<Pos>, rest: seq<(nat, nat)>) | Unplaced

  /**
    The placement loop of generate_gold: pile k goes to the cell the sampler
    finds showing '.', which then shows '*' and holds the pile's amount.
   */
  function PlacePiles(g: Grid, piles: seq<int>, draws: seq<(nat, nat)>): (r: Placed)
    requires Valid(g) && g.nC > 0 && g.nR > 0
    ensures r.Placed? ==> Valid(r.grid) && SameShape(g, r.grid) && |r.spots| == |piles|
    ensures r.Placed? ==> forall k :: 0 <= k < |piles| ==>
      InBounds(g, r.spots[k]) && At(g, r.spots[k]).ch == '.' && At(r.grid, r.spots[k]) == Cell('*', piles[k])
    ensures r.Placed? ==> forall k, l :: 0 <= k < l < |piles| ==> r.spots[k] != r.spots[l]
    ensures r.Placed? ==> forall q :: InBounds(g, q) && q !in r.spots ==> At(r.grid, q) == At(g, q)
    decreases |piles|
  {
    if piles == [] then Placed(g, [], draws)
    else
      match GeneratePosition(g, '.', draws)
      case Exhausted => Unplaced
      case Found(p, rest) =>
        var g1 := SetGold(SetChar(g, '*', p).0, piles[0], p).0;
        assert At(g1, p) == Cell('*', piles[0]);
        match PlacePiles(g1, piles[1..], rest)
        case Unplaced => Unplaced
        case Placed(g2, spots, rest2) =>
          PlaceStep(g, p, g1, piles, g2, spots);
          Placed(g2, [p] + spots, rest2)
  }

  /** One round of the placement loop, composed with the rounds after it. */
  lemma PlaceStep(g: Grid, p: Pos, g1: Grid, piles: seq<int>, g2: Grid, spots: seq<Pos>)
    requires Valid(g) && Valid(g1) && Valid(g2) && SameShape(g, g1) && SameShape(g1, g2)
    requires |piles| == |spots| + 1
    requires InBounds(g, p) && At(g, p).ch == '.' && At(g1, p) == Cell('*', piles[0])
    requires forall q :: InBounds(g, q) && q != p ==> At(g1, q) == At(g, q)
    requires forall k :: 0 <= k < |spots| ==>
      InBounds(g1, spots[k]) && At(g1, spots[k]).ch == '.' && At(g2, spots[k]) == Cell('*', piles[1..][k])
    requires forall k, l :: 0 <= k < l < |spots| ==> spots[k] != spots[l]
    requires forall q :: InBounds(g1, q) && q !in spots ==> At(g2, q) == At(g1, q)
    ensures forall k :: 0 <= k < |piles| ==>
      InBounds(g, ([p] + spots)[k]) && At(g, ([p] + spots)[k]).ch == '.' && At(g2, ([p] + spots)[k]) == Cell('*', piles[k])
    ensures forall k, l :: 0 <= k < l < |piles| ==> ([p] + spots)[k] != ([p] + spots)[l]
    ensures forall q :: InBounds(g, q) && q !in [p] + spots ==> At(g2, q) == At(g, q)
  {
    var all := [p] + spots;
    forall k | 0 <= k < |spots|
      ensures spots[k] != p && all[k + 1] == spots[k]
    {
      assert At(g1, spots[k]).ch == '.';
    }
    forall k | 0 <= k < |piles|
      ensures InBounds(g, all[k]) && At(g, all[k]).ch == '.' && At(g2, all[k]) == Cell('*', piles[k])
    {
      if k > 0 {
        assert all[k] == spots[k - 1] && piles[k] == piles[1..][k - 1];
      }
    }
    forall k, l | 0 <= k < l < |piles|
      ensures all[k] != all[l]
    {
      if k > 0 {
        assert all[k] == spots[k - 1] && all[l] == spots[l - 1];
      }
    }
    forall q | InBounds(g, q) && q !in all
      ensures At(g2, q) == At(g, q)
    {
      assert q != p && q !in spots;
    }
  }

  /** Placing piles on '.' cells adds exactly their sum to the grid's gold. */
  lemma {:induction false} PlacePilesGold(g: Grid, piles: seq<int>, draws: seq<(nat, nat)>)
    requires Valid(g) && g.nC > 0 && g.nR > 0
    requires PlacePiles(g, piles, draws).Placed?
    ensures GoldOnlyOnPiles(g) ==>
      && GoldOnlyOnPiles(PlacePiles(g, piles, draws).grid)
      && TotalGold(PlacePiles(g, piles, draws).grid) == TotalGold(g) + Sum(piles)
    decreases |piles|
  {
    if piles != [] && GoldOnlyOnPiles(g) {
      var Found(p, rest) := GeneratePosition(g, '.', draws);
      var g1 := SetGold(SetChar(g, '*', p).0, piles[0], p).0;
      DropPile(g, p, piles[0]);
      assert PlacePiles(g, piles, draws).grid == PlacePiles(g1, piles[1..], rest).grid;
      PlacePilesGold(g1, piles[1..], rest);
    }
  }

  /** One pile dropped on a '.' cell: the cell shows '*' and the grid gains the pile. */
  lemma DropPile(g: Grid, p: Pos, amount: int)
    requires Valid(g) && InBounds(g, p) && At(g, p).ch == '.' && GoldOnlyOnPiles(g)
    ensures var g1 := SetGold(SetChar(g, '*', p).0, amount, p).0;
      && Valid(g1) && At(g1, p) == Cell('*', amount)
      && TotalGold(g1) == TotalGold(g) + amount
      && GoldOnlyOnPiles(g1)
  {
    var g1 := SetGold(SetChar(g, '*', p).0, amount, p).0;
    assert At(g1, p) == Cell('*', amount);
  }

  /** The number of piles one rand() result v selects, given at least 10 room spots. */
  function PileCount(roomSpots: int, v: nat): (n: int)
    requires roomSpots >= 10
    ensures GoldMinNumPiles <= n <= GoldMaxNumPiles && n <= roomSpots
  {
    var localMax := if roomSpots < GoldMaxNumPiles then roomSpots else GoldMaxNumPiles;
    v % (localMax - GoldMinNumPiles + 1) + GoldMinNumPiles
  }

  /**
    The pile array: n piles of 1 each, then one more unit for each spread draw,
    so that every pile holds at least 1 and together they hold n + |spread|.
   */
  function MakePiles(n: nat, spread: seq<nat>): (piles: seq<int>)
    requires n > 0
    ensures |piles| == n
    ensures forall k :: 0 <= k < n ==> piles[k] >= 1
    ensures Sum(piles) == n + |spread|
  {
    var ones := FillOnes(seq(n, _ => 0), n).value;
    SumOfOnes(ones);
    Spread(ones, spread)
  }

  datatype Generated =
    | Generated(grid: Grid, count: int, piles: seq<int>, spots: seq<Pos>, rest: seq<(nat, nat)>)
    | GenExhausted

  /**
    generate_gold. With fewer than 10 room spots it answers 1 and places
    nothing. Otherwise it picks n piles, 10 <= n <= min(30, room spots), gives
    every pile 1 unit and spreads the other GoldTotal - n units one at a time,
    so that the piles sum to GoldTotal; each pile lands on a distinct cell that
    showed '.', which now shows '*' and holds the pile.
   */
  function GenerateGold(g: Grid, values: seq<nat>, cells: seq<(nat, nat)>): (r: Generated)
    requires Valid(g)
    ensures g.roomSpots < 10 ==> r == Generated(g, 1, [], [], cells)
    ensures r.Generated? ==> Valid(r.grid) && SameShape(g, r.grid)
    ensures r.Generated? && g.roomSpots >= 10 ==>
      && GoldMinNumPiles <= r.count <= GoldMaxNumPiles
      && r.count <= g.roomSpots
      && |r.piles| == r.count && |r.spots| == r.count
      && (forall k :: 0 <= k < r.count ==> r.piles[k] >= 1)
      && Sum(r.piles) == GoldTotal
    ensures r.Generated? ==> PlacedOn(g, r.grid, r.piles, r.spots)
    ensures r.Generated? && g.roomSpots >= 10 && GoldOnlyOnPiles(g) ==>
      GoldOnlyOnPiles(r.grid) && TotalGold(r.grid) == TotalGold(g) + GoldTotal
    ensures r.GenExhausted? ==> g.roomSpots >= 10
  {
    if g.roomSpots < 10 then Generated(g, 1, [], [], cells)
    else if values == [] then GenExhausted
    else
      var n := PileCount(g.roomSpots, values[0]);
      var spread := values[1..];
      if |spread| < GoldTotal - n then GenExhausted
      else
        var piles := MakePiles(n, spread[..GoldTotal - n]);
        assert Sum(piles) == GoldTotal;
        Scatter(g, n, piles, cells)
  }

  /** The placement loop's outcome, packaged with the pile count n it was run for. */
  function Scatter(g: Grid, n: int, piles: seq<int>, cells: seq<(nat, nat)>): (r: Generated)
    requires Valid(g) && g.nC > 0 && g.nR > 0
    ensures r.Generated? ==> r.count == n && r.piles == piles && |r.spots| == |piles|
    ensures r.Generated? ==> Valid(r.grid) && SameShape(g, r.grid)
    ensures r.Generated? ==> PlacedOn(g, r.grid, r.piles, r.spots)
    ensures r.Generated? && GoldOnlyOnPiles(g) ==>
      GoldOnlyOnPiles(r.grid) && TotalGold(r.grid) == TotalGold(g) + Sum(piles)
  {
    match PlacePiles(g, piles, cells)
    case Unplaced => GenExhausted
    case Placed(g1, spots, rest) =>
      PlacePilesGold(g, piles, cells);
      Generated(g1, n, piles, spots, rest)
  }

}

=== FILE: grids.dfy ===
/**
  The grid accessors the server calls (grid_get_point_c, grid_set_character,
  grid_get_point_gold, grid_set_gold, grid_swap, grid_get_room_spot) and the map
  loader, over a fixed nR x nC array of cells addressed [y][x].
  Out-of-range reads and writes answer with the sentinels '\0' and -1.
 */
module Grids {

  /** A column x and a row y, as a value: copying never aliases. */
  datatype Pos = Pos(x: int, y: int)

  /** One cell: its display character and the gold lying on it. */
  datatype Cell = Cell(ch: char, gold: int)

  /**
    nR rows of nC cells. roomSpots is the number of '.' cells counted when the
    map was loaded; later writes leave it alone.
   */
  datatype Grid = Grid(nR: int, nC: int, rows: seq<seq<Cell>>, roomSpots: int)

  /** Every row is populated to the grid's width; a grid with room spots has cells. */
  predicate Valid(g: Grid) {
    && 0 <= g.nC
    && g.nR == |g.rows|
    && (forall y :: 0 <= y < |g.rows| ==> |g.rows[y]| == g.nC)
    && 0 <= g.roomSpots
    && (g.roomSpots > 0 ==> g.nR > 0 && g.nC > 0)
  }

  predicate InBounds(g: Grid, p: Pos) {
    0 <= p.x < g.nC && 0 <= p.y < g.nR
  }

  /** Dimensions and room-spot count agree: nothing a write can change. */
  predicate SameShape(g: Grid, h: Grid) {
    g.nR == h.nR && g.nC == h.nC && g.roomSpots == h.roomSpots
  }

  function At(g: Grid, p: Pos): Cell
    requires Valid(g) && InBounds(g, p)
  {
    g.rows[p.y][p.x]
  }

  /** grid_get_point_c: the character at (x, y), '\0' outside the grid. */
  function GetChar(g: Grid, x: int, y: int): char
    requires Valid(g)
  {
    if InBounds(g, Pos(x, y)) then g.rows[y][x].ch else '\0'
  }

  /** grid_get_point_gold: the gold at (x, y), -1 outside the grid. */
  function GetGold(g: Grid, x: int, y: int): int
    requires Valid(g)
  {
    if InBounds(g, Pos(x, y)) then g.rows[y][x].gold else -1
  }

  /** Replaces one in-range cell. */
  function Put(g: Grid, p: Pos, c: Cell): (r: Grid)
    requires Valid(g) && InBounds(g, p)
    ensures Valid(r) && SameShape(g, r)
    ensures At(r, p) == c
    ensures forall q :: InBounds(g, q) && q != p ==> At(r, q) == At(g, q)
    ensures TotalGold(r) == TotalGold(g) - At(g, p).gold + c.gold
  {
    RowGoldUpdate(g.rows[p.y], p.x, c);
    RowsGoldUpdate(g.rows, p.y, g.rows[p.y][p.x := c]);
    g.(rows := g.rows[p.y := g.rows[p.y][p.x := c]])
  }

  /**
    grid_set_character: writes c at p and answers the character it replaced;
    outside the grid nothing is written and the answer is '\0'. Gold is untouched.
   */
  function SetChar(g: Grid, c: char, p: Pos): (r: (Grid, char))
    requires Valid(g)
    ensures Valid(r.0) && SameShape(g, r.0)
    ensures r.1 == GetChar(g, p.x, p.y)
    ensures InBounds(g, p) ==> GetChar(r.0, p.x, p.y) == c
    ensures forall q :: InBounds(g, q) ==> GetGold(r.0, q.x, q.y) == GetGold(g, q.x, q.y)
    ensures forall q :: InBounds(g, q) && q != p ==> At(r.0, q) == At(g, q)
    ensures !InBounds(g, p) ==> r.0 == g
    ensures TotalGold(r.0) == TotalGold(g)
  {
    if InBounds(g, p) then (Put(g, p, Cell(c, At(g, p).gold)), At(g, p).ch) else (g, '\0')
  }

  /**
    grid_set_gold: writes the amount at p and answers the amount it replaced;
    outside the grid nothing is written and the answer is -1. Characters are untouched.
   */
  function SetGold(g: Grid, amount: int, p: Pos): (r: (Grid, int))
    requires Valid(g)
    ensures Valid(r.0) && SameShape(g, r.0)
    ensures r.1 == GetGold(g, p.x, p.y)
    ensures InBounds(g, p) ==> GetGold(r.0, p.x, p.y) == amount
    ensures forall q :: InBounds(g, q) ==> GetChar(r.0, q.x, q.y) == GetChar(g, q.x, q.y)
    ensures forall q :: InBounds(g, q) && q != p ==> At(r.0, q) == At(g, q)
    ensures !InBounds(g, p) ==> r.0 == g
    ensures InBounds(g, p) ==> TotalGold(r.0) == TotalGold(g) - GetGold(g, p.x, p.y) + amount
  {
    if InBounds(g, p) then (Put(g, p, Cell(At(g, p).ch, amount)), At(g, p).gold) else (g, -1)
  }

  /**
    grid_swap: exchanges the characters (not the gold) of two cells when both
    lie inside the grid; otherwise the grid is unchanged.
   */
  function Swap(g: Grid, a: Pos, b: Pos): (r: Grid)
    requires Valid(g)
    ensures Valid(r) && SameShape(g, r)
    ensures InBounds(g, a) && InBounds(g, b) ==>
      GetChar(r, a.x, a.y) == GetChar(g, b.x, b.y) && GetChar(r, b.x, b.y) == GetChar(g, a.x, a.y)
    ensures forall q :: InBounds(g, q) ==> GetGold(r, q.x, q.y) == GetGold(g, q.x, q.y)
    ensures forall q :: InBounds(g, q) && q != a && q != b ==> At(r, q) == At(g, q)
    ensures !(InBounds(g, a) && InBounds(g, b)) ==> r == g
    ensures TotalGold(r) == TotalGold(g)
  {
    if InBounds(g, a) && InBounds(g, b) then
      var ca := At(g, a);
      var cb := At(g, b);
      var g1 := Put(g, a, Cell(cb.ch, ca.gold));
      Put(g1, b, Cell(ca.ch, cb.gold))
    else
      g
  }

  /** grid_get_room_spot */
  function RoomSpot(g: Grid): int {
    g.roomSpots
  }

  // ---------------------------------------------------------------------------
  // Gold lying on the grid

  function RowGold(row: seq<Cell>): int {
    if row == [] then 0 else row[0].gold + RowGold(row[1..])
  }

  function RowsGold(rows: seq<seq<Cell>>): int {
    if rows == [] then 0 else RowGold(rows[0]) + RowsGold(rows[1..])
  }

  /** The sum of the gold amounts of all cells. */
  function TotalGold(g: Grid): int {
    RowsGold(g.rows)
  }

  lemma {:induction false} RowGoldUpdate(row: seq<Cell>, x: int, c: Cell)
    requires 0 <= x < |row|
    ensures RowGold(row[x := c]) == RowGold(row) - row[x].gold + c.gold
  {
    if x == 0 {
      assert row[x := c][1..] == row[1..];
    } else {
      RowGoldUpdate(row[1..], x - 1, c);
      assert row[x := c][1..] == row[1..][x - 1 := c];
    }
  }

  lemma {:induction false} RowsGoldUpdate(rows: seq<seq<Cell>>, y: int, row: seq<Cell>)
    requires 0 <= y < |rows|
    ensures RowsGold(rows[y := row]) == RowsGold(rows) - RowGold(rows[y]) + RowGold(row)
  {
    if y == 0 {
      assert rows[y := row][1..] == rows[1..];
    } else {
      RowsGoldUpdate(rows[1..], y - 1, row);
      assert rows[y := row][1..] == rows[1..][y - 1 := row];
    }
  }

  // ---------------------------------------------------------------------------
  // Loading a map

  /** The length of the longest line: the grid's column count. */
  function MaxLen(lines: seq<string>): (m: nat)
    ensures forall y :: 0 <= y < |lines| ==> |lines[y]| <= m
    ensures lines != [] ==> exists y :: 0 <= y < |lines| && |lines[y]| == m
    ensures lines == [] ==> m == 0
  {
    if lines == [] then 0
    else
      var rest := MaxLen(lines[1..]);
      assert forall y :: 1 <= y < |lines| ==> lines[y] == lines[1..][y - 1];
      if |lines[0]| >= rest then |lines[0]| else rest
  }

  function CountIn(s: string, c: char): nat {
    if s == [] then 0 else (if s[0] == c then 1 else 0) + CountIn(s[1..], c)
  }

  /** The number of '.' characters in the map's lines. */
  function RoomCount(lines: seq<string>): nat {
    if lines == [] then 0 else CountIn(lines[0], '.') + RoomCount(lines[1..])
  }

  /** One line as a row of width n, padded with void ' ', holding no gold. */
  function PadRow(line: string, n: nat): seq<Cell> {
    seq(n, x requires 0 <= x < n => Cell(if x < |line| then line[x] else ' ', 0))
  }

  function PadRows(lines: seq<string>, n: nat): seq<seq<Cell>> {
    seq(|lines|, y requires 0 <= y < |lines| => PadRow(lines[y], n))
  }

  /**
    grid_load: one row per line, as many columns as the longest line, lines
    shorter than that padded with void ' ', no gold anywhere, and the '.' cells
    counted into roomSpots.
   */
  function Load(lines: seq<string>): (g: Grid)
    ensures Valid(g)
    ensures g.nR == |lines|
    ensures forall y :: 0 <= y < |lines| ==> |lines[y]| <= g.nC
    ensures lines != [] ==> exists y :: 0 <= y < |lines| && |lines[y]| == g.nC
    ensures forall p :: InBounds(g, p) ==>
      At(g, p) == Cell(if p.x < |lines[p.y]| then lines[p.y][p.x] else ' ', 0)
    ensures g.roomSpots == RoomCount(lines) == RowsCount(g.rows, '.')
  {
    var n := MaxLen(lines);
    RoomsHaveWidth(lines);
    PadRowsCount(lines, n);
    Grid(|lines|, n, PadRows(lines, n), RoomCount(lines))
  }

  function RowCount(row: seq<Cell>, c: char): nat {
    if row == [] then 0 else (if row[0].ch == c then 1 else 0) + RowCount(row[1..], c)
  }

  /** The number of cells showing c. */
  function RowsCount(rows: seq<seq<Cell>>, c: char): nat {
    if rows == [] then 0 else RowCount(rows[0], c) + RowsCount(rows[1..], c)
  }

  lemma {:induction false} CountInBound(s: string, c: char)
    ensures CountIn(s, c) <= |s|
  {
    if s != [] {
      CountInBound(s[1..], c);
    }
  }

  /** A map with a room spot has at least one line and one column. */
  lemma {:induction false} RoomsHaveWidth(lines: seq<string>)
    ensures RoomCount(lines) > 0 ==> lines != [] && MaxLen(lines) > 0
  {
    if lines != [] {
      CountInBound(lines[0], '.');
      RoomsHaveWidth(lines[1..]);
    }
  }

  /** Padding adds no '.' cells. */
  lemma {:induction false} PadRowCount(line: string, n: nat)
    requires |line| <= n
    ensures RowCount(PadRow(line, n), '.') == CountIn(line, '.')
    decreases n
  {
    if n == 0 {
    } else if line == [] {
      PadRowCount(line, n - 1);
      assert PadRow(line, n)[1..] == PadRow(line, n - 1);
    } else {
      PadRowCount(line[1..], n - 1);
      assert PadRow(line, n)[1..] == PadRow(line[1..], n - 1);
    }
  }

  lemma {:induction false} PadRowsCount(lines: seq<string>, n: nat)
    requires forall y :: 0 <= y < |lines| ==> |lines[y]| <= n
    ensures RowsCount(PadRows(lines, n), '.') == RoomCount(lines)
  {
    if lines != [] {
      PadRowCount(lines[0], n);
      PadRowsCount(lines[1..], n);
      assert PadRows(lines, n)[1..] == PadRows(lines[1..], n);
    }
  }

}

=== FILE: movement.dfy ===
/**
  Player movement on the master grid: move, point_status, and the run a
  capital movement key makes by repeating move until it fails.
 */
module Movement {
  import opened Options
  import opened Ctype
  import opened Grids
  import opened State

  /** The eight movement keys: h l k j y u b n. */
  datatype Dir = Left | Right | Up | Down | UpLeft | UpRight | DownLeft | DownRight

  function DX(d: Dir): int {
    match d
    case Left => -1
    case Right => 1
    case Up => 0
    case Down => 0
    case UpLeft => -1
    case UpRight => 1
    case DownLeft => -1
    case DownRight => 1
  }

  function DY(d: Dir): int {
    match d
    case Left => 0
    case Right => 0
    case Up => -1
    case Down => 1
    case UpLeft => -1
    case UpRight => -1
    case DownLeft => 1
    case DownRight => 1
  }

  function Next(p: Pos, d: Dir): Pos {
    Pos(p.x + DX(d), p.y + DY(d))
  }

  lemma NextMoves(p: Pos, d: Dir)
    ensures Next(p, d) != p
  {
  }

  /** The characters a player may step onto: room, passage, gold, or another player. */
  predicate Traversable(c: char) {
    c == '.' || IsAlpha(c) || c == '#' || c == '*'
  }

  /**
    point_status: 1 for an entry into a passage (from a room cell or a letter
    onto '#'), 2 for an exit (from '#' or a letter onto '.'), 0 otherwise, read
    from the characters the master grid shows at the two positions.
   */
  function PointStatus(grid: Grid, prev: Pos, next: Pos): (s: int)
    requires Valid(grid)
    ensures 0 <= s <= 2
    ensures var pc := GetChar(grid, prev.x, prev.y); var nc := GetChar(grid, next.x, next.y);
      && (s == 1 <==> (pc == '.' || IsAlpha(pc)) && nc == '#')
      && (s == 2 <==> (pc == '#' || IsAlpha(pc)) && nc == '.')
  {
    var pc := GetChar(grid, prev.x, prev.y);
    var nc := GetChar(grid, next.x, next.y);
    if (pc == '.' || IsAlpha(pc)) && nc == '#' then 1
    else if (pc == '#' || IsAlpha(pc)) && nc == '.' then 2
    else 0
  }

  datatype MoveResult = Moved(game: Game) | Blocked | Fault

  /**
    The vacated cell's repair when the mover steps onto '#' or '.': the
    character to write there, if any, and the passage flag afterwards. As
    written, entry and exit are recognised by point_status on the swapped grid
    from the mover's previous and current positions; corrected, the passage
    flag alone tells which terrain the mover leaves.
   */
  function Vacate(v: Version, swapped: Grid, p: Player, c: char): (r: (Option<char>, bool))
    requires Valid(swapped) && (c == '#' || c == '.')
    ensures v == Corrected ==> r.1 == (c == '#')
    ensures v == Corrected ==> r.0 == (if p.inPassage == (c == '#') then None else Some(if p.inPassage then '#' else '.'))
    ensures v == AsWritten ==> r.0.Some? ==> r.0.value == (if c == '#' then '.' else '#') && r.1 == (c == '#')
    ensures v == AsWritten ==> r.0.None? ==> r.1 == p.inPassage
    ensures v == AsWritten ==> (r.0.Some? <==>
      if c == '#' then !p.inPassage && PointStatus(swapped, p.prev, p.pos) == 1
      else p.inPassage && PointStatus(swapped, p.prev, p.pos) == 2)
  {
    match v
    case AsWritten =>
      var st := PointStatus(swapped, p.prev, p.pos);
      if c == '#' && st == 1 && !p.inPassage then (Some('.'), true)
      else if c == '.' && st == 2 && p.inPassage then (Some('#'), false)
      else (None, p.inPassage)
    case Corrected =>
      if c == '#' && !p.inPassage then (Some('.'), true)
      else if c == '.' && p.inPassage then (Some('#'), false)
      else (None, p.inPassage)
  }

  /** The requirements shared by the walking steps: a fresh in-bounds cell showing c. */
  predicate CanWalk(g: Game, i: nat, t: Pos)
  {
    && Wf(g) && i < |g.roster|
    && InBounds(g.grid, t) && InBounds(g.grid, g.roster[i].pos) && t != g.roster[i].pos
  }

  /** Player i now stands at t, has come from where it stood, and is in a passage or not. */
  function Relocate(g: Game, i: nat, t: Pos, inPassage: bool): (h: Game)
    requires Wf(g) && i < |g.roster|
    ensures Wf(h) && SameFrame(g, h) && |h.roster| == |g.roster|
    ensures h.grid == g.grid && h.goldRemaining == g.goldRemaining && h.pileCount == g.pileCount
    ensures h.roster[i] == g.roster[i].(pos := t, prev := g.roster[i].pos, inPassage := inPassage)
    ensures forall k :: 0 <= k < |g.roster| && k != i ==> h.roster[k] == g.roster[k]
  {
    g.(roster := g.roster[i := g.roster[i].(pos := t, prev := g.roster[i].pos, inPassage := inPassage)])
  }

  /**
    A step onto a room or passage cell: the characters are swapped, the vacated
    cell repaired, and the player advanced with prev_pos set to the position it
    leaves. No gold changes hands.
   */
  function StepOnto(g: Game, i: nat, t: Pos, v: Version): (h: Game)
    requires CanWalk(g, i, t)
    requires GetChar(g.grid, t.x, t.y) == '.' || GetChar(g.grid, t.x, t.y) == '#'
    ensures Wf(h) && SameFrame(g, h) && |h.roster| == |g.roster| && h.pileCount == g.pileCount
    ensures var p := g.roster[i];
      && h.roster[i] == p.(pos := t, prev := p.pos, inPassage := h.roster[i].inPassage)
      && h.goldRemaining == g.goldRemaining
      && TotalGold(h.grid) == TotalGold(g.grid)
      && GetChar(h.grid, t.x, t.y) == GetChar(g.grid, p.pos.x, p.pos.y)
      && (GetChar(h.grid, p.pos.x, p.pos.y) == '.' || GetChar(h.grid, p.pos.x, p.pos.y) == '#')
    ensures forall k :: 0 <= k < |g.roster| && k != i ==> h.roster[k] == g.roster[k]
    ensures forall q :: InBounds(g.grid, q) ==> GetGold(h.grid, q.x, q.y) == GetGold(g.grid, q.x, q.y)
    ensures forall q :: InBounds(g.grid, q) && q != t && q != g.roster[i].pos ==> At(h.grid, q) == At(g.grid, q)
    ensures v == Corrected ==> var p := g.roster[i];
      && GetChar(h.grid, p.pos.x, p.pos.y) == (if p.inPassage then '#' else '.')
      && h.roster[i].inPassage == (GetChar(g.grid, t.x, t.y) == '#')
  {
    var p := g.roster[i];
    var c := GetChar(g.grid, t.x, t.y);
    var swapped := Swap(g.grid, t, p.pos);
    var (mark, inPassage) := Vacate(v, swapped, p, c);
    var grid := Mark(swapped, mark, p.pos);
    assert GetChar(grid, t.x, t.y) == GetChar(swapped, t.x, t.y);
    Relocate(g.(grid := grid), i, t, inPassage)
  }

  /**
    A step onto a gold pile: the characters are swapped, then pickup_gold
    overwrites the vacated cell and moves the pile into the purse, and the
    player is advanced. As written the overwrite is always '.' and the passage
    flag is kept; corrected, the overwrite is the terrain the player leaves
    and the player is no longer in a passage.
   */
  function StepOntoGold(g: Game, i: nat, t: Pos, v: Version): (h: Game)
    requires CanWalk(g, i, t)
    requires GetChar(g.grid, t.x, t.y) == '*'
    ensures Wf(h) && SameFrame(g, h) && |h.roster| == |g.roster|
    ensures var p := g.roster[i]; var amount := GetGold(g.grid, t.x, t.y);
      h.roster[i] == p.(pos := t, prev := p.pos, inPassage := h.roster[i].inPassage,
                        purse := p.purse + amount, pickedUp := amount)
    ensures var amount := GetGold(g.grid, t.x, t.y);
      && h.goldRemaining == g.goldRemaining - amount
      && h.pileCount == (if v == Corrected && amount != 0 then g.pileCount - 1 else g.pileCount)
      && TotalGold(h.grid) == TotalGold(g.grid) - amount
    ensures GetGold(h.grid, t.x, t.y) == 0
    ensures GetChar(h.grid, t.x, t.y) == GetChar(g.grid, g.roster[i].pos.x, g.roster[i].pos.y)
    ensures forall k :: 0 <= k < |g.roster| && k != i ==> h.roster[k] == g.roster[k]
    ensures forall q :: InBounds(g.grid, q) && q != t ==> GetGold(h.grid, q.x, q.y) == GetGold(g.grid, q.x, q.y)
    ensures forall q :: InBounds(g.grid, q) && q != t && q != g.roster[i].pos ==> At(h.grid, q) == At(g.grid, q)
    ensures var p := g.roster[i];
      && GetChar(h.grid, p.pos.x, p.pos.y) == (if v == Corrected && p.inPassage then '#' else '.')
      && h.roster[i].inPassage == (v == AsWritten && p.inPassage)
  {
    var p := g.roster[i];
    var swapped := g.(grid := Swap(g.grid, t, p.pos));
    var mark := if v == Corrected && p.inPassage then '#' else '.';
    var picked := PickupGold(v, swapped, i, t, Some(mark));
    PickupFrame(v, swapped, i, t, Some(mark));
    assert GetGold(swapped.grid, t.x, t.y) == GetGold(g.grid, t.x, t.y);
    Relocate(picked, i, t, v == AsWritten && p.inPassage)
  }

  /**
    A move onto another player's letter: the two letters are swapped on the
    grid, the mover takes the other's passage flag and previous position and
    lands on t, the other takes the mover's previous and current positions
    and passage flag.
   */
  function Exchange(g: Game, i: nat, j: nat, t: Pos): (h: Game)
    requires CanWalk(g, i, t) && j < |g.roster| && j != i
    ensures Wf(h) && SameFrame(g, h) && |h.roster| == |g.roster| && h.pileCount == g.pileCount
    ensures h.goldRemaining == g.goldRemaining && TotalGold(h.grid) == TotalGold(g.grid)
    ensures var p := g.roster[i]; var q := g.roster[j];
      && h.roster[i] == p.(pos := t, prev := q.prev, inPassage := q.inPassage)
      && h.roster[j] == q.(pos := p.pos, prev := p.prev, inPassage := p.inPassage)
      && GetChar(h.grid, t.x, t.y) == GetChar(g.grid, p.pos.x, p.pos.y)
      && GetChar(h.grid, p.pos.x, p.pos.y) == GetChar(g.grid, t.x, t.y)
    ensures forall k :: 0 <= k < |g.roster| && k != i && k != j ==> h.roster[k] == g.roster[k]
    ensures forall q :: InBounds(g.grid, q) ==> GetGold(h.grid, q.x, q.y) == GetGold(g.grid, q.x, q.y)
    ensures forall q :: InBounds(g.grid, q) && q != t && q != g.roster[i].pos ==> At(h.grid, q) == At(g.grid, q)
  {
    var p := g.roster[i];
    var q := g.roster[j];
    g.(grid := Swap(g.grid, t, p.pos),
       roster := g.roster[j := q.(inPassage := p.inPassage, prev := p.prev, pos := p.pos)]
                         [i := p.(inPassage := q.inPassage, prev := q.prev, pos := t)])
  }

  /** The cell a move of player i in direction d aims at. */
  function Target(g: Game, i: nat, d: Dir): Pos
    requires i < |g.roster|
  {
    Next(g.roster[i].pos, d)
  }

  /** The conditions under which move returns false before touching anything. */
  predicate Refused(g: Game, i: nat, d: Dir)
    requires Wf(g) && i < |g.roster|
  {
    var t := Target(g, i, d);
    !InBounds(g.grid, t) || !Traversable(GetChar(g.grid, t.x, t.y))
  }

  /**
    The piles a move of player i in direction d takes off gold_pile_number:
    one when the corrected move lands on a pile holding gold, none otherwise.
   */
  function PileTaken(g: Game, i: nat, d: Dir, v: Version): nat
    requires Wf(g) && i < |g.roster|
  {
    var t := Target(g, i, d);
    if v == Corrected && GetChar(g.grid, t.x, t.y) == '*' && GetGold(g.grid, t.x, t.y) != 0 then 1 else 0
  }

  /**
    The undefined cases of move once the target is known to be traversable:
    the mover stands outside the grid, or the letter on the target names no
    player or the mover itself.
   */
  predicate Faulty(g: Game, i: nat, d: Dir)
    requires Wf(g) && i < |g.roster|
  {
    var t := Target(g, i, d);
    var c := GetChar(g.grid, t.x, t.y);
    || !InBounds(g.grid, g.roster[i].pos)
    || (IsAlpha(c) && (FindSymbol(g.roster, c).None? || FindSymbol(g.roster, c) == Some(i)))
  }

  /**
    What a successful move of player i in direction d does to the board and
    the roster. The mover stands on the target, which shows what the mover's
    cell showed, and only those two cells change. The gold a pile on the
    target held leaves the grid and gold_remaining for the mover's purse.
    Onto a non-letter, the mover's prev_pos is the cell it left and no other
    player changes. Onto a letter, the player that letter names moves to the
    mover's cell, the two trade previous positions and passage flags, and no
    third player changes. Apart from gold_picked_up, nothing else about any
    player changes.
   */
  ghost predicate Stepped(g: Game, h: Game, i: nat, d: Dir)
    requires Wf(g) && Wf(h) && SameShape(g.grid, h.grid) && i < |g.roster| && |h.roster| == |g.roster|
  {
    StepCells(g, h, i, d) && StepRoster(g, h, i, d)
  }

  /** The board half of Stepped: the two cells, their gold, and gold_remaining. */
  ghost predicate StepCells(g: Game, h: Game, i: nat, d: Dir)
    requires Wf(g) && Wf(h) && SameShape(g.grid, h.grid) && i < |g.roster|
  {
    var p := g.roster[i];
    var t := Target(g, i, d);
    && InBounds(g.grid, t) && InBounds(g.grid, p.pos)
    && GetChar(h.grid, t.x, t.y) == GetChar(g.grid, p.pos.x, p.pos.y)
    && (forall q :: InBounds(g.grid, q) && q != t && q != p.pos ==> At(h.grid, q) == At(g.grid, q))
    && GetGold(h.grid, p.pos.x, p.pos.y) == GetGold(g.grid, p.pos.x, p.pos.y)
    && (GetChar(g.grid, t.x, t.y) == '*' ==>
          GetGold(h.grid, t.x, t.y) == 0 && h.goldRemaining == g.goldRemaining - GetGold(g.grid, t.x, t.y))
    && (GetChar(g.grid, t.x, t.y) != '*' ==>
          GetGold(h.grid, t.x, t.y) == GetGold(g.grid, t.x, t.y) && h.goldRemaining == g.goldRemaining)
  }

  /** The roster half of Stepped: the mover, the player it trades places with, and everyone else. */
  ghost predicate StepRoster(g: Game, h: Game, i: nat, d: Dir)
    requires Wf(g) && Wf(h) && SameShape(g.grid, h.grid) && i < |g.roster| && |h.roster| == |g.roster|
  {
    var p := g.roster[i];
    var t := Target(g, i, d);
    var c := GetChar(g.grid, t.x, t.y);
    && h.roster[i].pos == t
    && SameIdentity(p, h.roster[i])
    && h.roster[i].purse == p.purse + (if c == '*' then GetGold(g.grid, t.x, t.y) else 0)
    && (!IsAlpha(c) ==>
          && h.roster[i].prev == p.pos
          && forall k :: 0 <= k < |g.roster| && k != i ==> SamePlayer(g, h, k))
    && (IsAlpha(c) ==>
          && FindSymbol(g.roster, c).Some? && FindSymbol(g.roster, c).value != i
          && var j := FindSymbol(g.roster, c).value;
          && var q := g.roster[j];
          && h.roster[i].prev == q.prev && h.roster[i].inPassage == q.inPassage
          && SameIdentity(q, h.roster[j]) && h.roster[j].purse == q.purse
          && h.roster[j].pos == p.pos && h.roster[j].prev == p.prev && h.roster[j].inPassage == p.inPassage
          && GetChar(h.grid, p.pos.x, p.pos.y) == c
          && forall k :: 0 <= k < |g.roster| && k != i && k != j ==> SamePlayer(g, h, k))
  }

  /** A move keeps the gold in gold_remaining and the purses together. */
  lemma SteppedPurses(g: Game, h: Game, i: nat, d: Dir)
    requires Wf(g) && Wf(h) && SameShape(g.grid, h.grid) && i < |g.roster| && |h.roster| == |g.roster|
    requires Stepped(g, h, i, d)
    ensures h.goldRemaining + Purses(h.roster) == g.goldRemaining + Purses(g.roster)
  {
    var t := Target(g, i, d);
    var c := GetChar(g.grid, t.x, t.y);
    if IsAlpha(c) {
      var j := FindSymbol(g.roster, c).value;
      assert forall k :: 0 <= k < |g.roster| && k != i ==> g.roster[k].purse == h.roster[k].purse by {
        forall k | 0 <= k < |g.roster| && k != i
          ensures g.roster[k].purse == h.roster[k].purse
        {
          if k != j {
            assert SamePlayer(g, h, k);
          }
        }
      }
      PursesShift(g.roster, h.roster, i, 0);
    } else {
      assert forall k :: 0 <= k < |g.roster| && k != i ==> g.roster[k].purse == h.roster[k].purse by {
        forall k | 0 <= k < |g.roster| && k != i
          ensures g.roster[k].purse == h.roster[k].purse
        {
          assert SamePlayer(g, h, k);
        }
      }
      PursesShift(g.roster, h.roster, i, if c == '*' then GetGold(g.grid, t.x, t.y) else 0);
    }
  }

  /**
    move, before its closing refresh: Blocked when the target lies outside
    the grid or shows something other than '.', '#', '*' or a letter; Fault
    when the letter names no player in the symbol index (a NULL dereference)
    or the mover itself (its positions would be freed twice), and when the
    mover stands outside the grid, which no placed player does; otherwise the
    step or the exchange.
   */
  function Advance(g: Game, i: nat, d: Dir, v: Version): (r: MoveResult)
    requires Wf(g) && i < |g.roster|
    ensures r.Blocked? <==> Refused(g, i, d)
    ensures r.Fault? <==> !Refused(g, i, d) && Faulty(g, i, d)
    ensures r.Moved? ==> var h := r.game;
      && Wf(h) && SameFrame(g, h) && |h.roster| == |g.roster|
      && h.roster[i].pos == Target(g, i, d)
      && h.goldRemaining - TotalGold(h.grid) == g.goldRemaining - TotalGold(g.grid)
      && h.pileCount == g.pileCount - PileTaken(g, i, d, v)
    ensures r.Moved? ==> Stepped(g, r.game, i, d)
    ensures r.Moved? ==> forall k :: 0 <= k < |g.roster| && k != i ==> r.game.roster[k].pickedUp == g.roster[k].pickedUp
    ensures r.Moved? ==> var t := Target(g, i, d);
      r.game.roster[i].pickedUp == if GetChar(g.grid, t.x, t.y) == '*' then GetGold(g.grid, t.x, t.y) else g.roster[i].pickedUp
  {
    var p := g.roster[i];
    var t := Target(g, i, d);
    NextMoves(p.pos, d);
    if !InBounds(g.grid, t) then Blocked
    else
      var c := GetChar(g.grid, t.x, t.y);
      if !Traversable(c) then Blocked
      else if !InBounds(g.grid, p.pos) then Fault
      else if IsAlpha(c) then
        match FindSymbol(g.roster, c)
        case None => Fault
        case Some(j) =>
          if j == i then Fault
          else
            ExchangeStepped(g, i, j, d);
            Moved(Exchange(g, i, j, t))
      else if c == '*' then
        StepOntoGoldStepped(g, i, d, v);
        Moved(StepOntoGold(g, i, t, v))
      else
        StepOntoStepped(g, i, d, v);
        Moved(StepOnto(g, i, t, v))
  }

  /** A step onto a room or passage cell is a move as Stepped describes it. */
  lemma StepOntoStepped(g: Game, i: nat, d: Dir, v: Version)
    requires i < |g.roster| && CanWalk(g, i, Target(g, i, d))
    requires var t := Target(g, i, d); GetChar(g.grid, t.x, t.y) == '.' || GetChar(g.grid, t.x, t.y) == '#'
    ensures var h := StepOnto(g, i, Target(g, i, d), v);
      && Stepped(g, h, i, d)
      && forall k :: 0 <= k < |g.roster| && k != i ==> h.roster[k].pickedUp == g.roster[k].pickedUp
  {
    var t := Target(g, i, d);
    assert !IsAlpha(GetChar(g.grid, t.x, t.y));
  }

  /** A step onto a pile is a move as Stepped describes it. */
  lemma StepOntoGoldStepped(g: Game, i: nat, d: Dir, v: Version)
    requires i < |g.roster| && CanWalk(g, i, Target(g, i, d))
    requires var t := Target(g, i, d); GetChar(g.grid, t.x, t.y) == '*'
    ensures var h := StepOntoGold(g, i, Target(g, i, d), v);
      && Stepped(g, h, i, d)
      && forall k :: 0 <= k < |g.roster| && k != i ==> h.roster[k].pickedUp == g.roster[k].pickedUp
  {
    var t := Target(g, i, d);
    assert !IsAlpha(GetChar(g.grid, t.x, t.y));
  }

  /** A move onto the letter of player j, another player, is a move as Stepped describes it. */
  lemma ExchangeStepped(g: Game, i: nat, j: nat, d: Dir)
    requires i < |g.roster| && CanWalk(g, i, Target(g, i, d))
    requires var t := Target(g, i, d); var c := GetChar(g.grid, t.x, t.y);
      IsAlpha(c) && FindSymbol(g.roster, c) == Some(j) && j != i
    ensures var h := Exchange(g, i, j, Target(g, i, d));
      && Stepped(g, h, i, d)
      && forall k :: 0 <= k < |g.roster| && k != i ==> h.roster[k].pickedUp == g.roster[k].pickedUp
  {
  }

  /** Refresh after a move leaves it a move as Stepped describes it. */
  lemma SteppedRefreshed(g: Game, h: Game, i: nat, d: Dir)
    requires Wf(g) && Wf(h) && SameShape(g.grid, h.grid) && i < |g.roster| && |h.roster| == |g.roster|
    requires Stepped(g, h, i, d)
    ensures Stepped(g, Refresh(h), i, d)
  {
    var r := Refresh(h);
    forall k | 0 <= k < |g.roster| && SamePlayer(g, h, k)
      ensures SamePlayer(g, r, k)
    {
      assert r.roster[k] == h.roster[k].(pickedUp := r.roster[k].pickedUp);
    }
  }

  /** move: the step followed by refresh when it succeeds. */
  function Move(g: Game, i: nat, d: Dir, v: Version): (r: MoveResult)
    requires Wf(g) && i < |g.roster|
    ensures r.Blocked? <==> Refused(g, i, d)
    ensures r.Fault? <==> Advance(g, i, d, v).Fault?
    ensures r.Moved? ==> var h := r.game;
      && Wf(h) && SameShape(g.grid, h.grid) && |h.roster| == |g.roster|
      && h.roster[i].pos == Target(g, i, d)
      && h.goldRemaining - TotalGold(h.grid) == g.goldRemaining - TotalGold(g.grid)
      && (h.playing <==> g.playing && h.goldRemaining != 0)
      && h.pileCount == g.pileCount - PileTaken(g, i, d, v)
      && SameSetting(g, h)
      && h.goldRemaining + Purses(h.roster) == g.goldRemaining + Purses(g.roster)
    ensures r.Moved? ==> Stepped(g, r.game, i, d)
  {
    match Advance(g, i, d, v)
    case Moved(h) =>
      SteppedRefreshed(g, h, i, d);
      SteppedPurses(g, Refresh(h), i, d);
      Moved(Refresh(h))
    case Blocked => Blocked
    case Fault => Fault
  }

  /**
    How many more cells player i can advance in direction d before leaving
    the grid: the distance to the border along x when d moves along x, along y
    otherwise.
   */
  function Budget(g: Game, i: nat, d: Dir): nat
    requires i < |g.roster|
  {
    var p := g.roster[i].pos;
    var b :=
      if DX(d) > 0 then g.grid.nC - 1 - p.x
      else if DX(d) < 0 then p.x
      else if DY(d) > 0 then g.grid.nR - 1 - p.y
      else p.y;
    if b < 0 then 0 else b
  }

  function Max(a: int, b: int): int {
    if a < b then b else a
  }

  /** Every successful step uses up exactly one cell of the budget. */
  lemma MoveSpendsBudget(g: Game, i: nat, d: Dir, v: Version)
    requires Wf(g) && i < |g.roster|
    requires Move(g, i, d, v).Moved?
    ensures Budget(g, i, d) >= 1
    ensures Budget(Move(g, i, d, v).game, i, d) == Budget(g, i, d) - 1
  {
    var h := Move(g, i, d, v).game;
    assert !Refused(g, i, d);
    BudgetStep(g, h, i, d);
  }

  /** A player moved one cell along d, onto a cell of the same grid, is one cell closer to the border. */
  lemma BudgetStep(g: Game, h: Game, i: nat, d: Dir)
    requires i < |g.roster| && i < |h.roster| && SameShape(g.grid, h.grid)
    requires InBounds(g.grid, Target(g, i, d)) && h.roster[i].pos == Target(g, i, d)
    ensures Budget(g, i, d) >= 1
    ensures Budget(h, i, d) == Budget(g, i, d) - 1
  {
  }

  /** Inside the grid the budget is less than the longer side. */
  lemma BudgetBound(g: Game, i: nat, d: Dir)
    requires Wf(g) && i < |g.roster| && InBounds(g.grid, g.roster[i].pos)
    ensures Budget(g, i, d) < Max(g.grid.nR, g.grid.nC)
  {
  }

  /** The cell n steps from p in direction d. */
  function Along(p: Pos, d: Dir, n: nat): Pos
    decreases n
  {
    if n == 0 then p else Along(Next(p, d), d, n - 1)
  }

  lemma {:induction false} AlongIsStraight(p: Pos, d: Dir, n: nat)
    ensures Along(p, d, n) == Pos(p.x + n * DX(d), p.y + n * DY(d))
    decreases n
  {
    if n > 0 {
      AlongIsStraight(Next(p, d), d, n - 1);
      assert n * DX(d) == DX(d) + (n - 1) * DX(d);
      assert n * DY(d) == DY(d) + (n - 1) * DY(d);
    }
  }

  datatype RunResult = Ran(game: Game, steps: nat) | RunFault

  /**
    A capital movement key: move repeated while it succeeds. The run ends
    after at most Budget steps, each one cell further along d, on a state from
    which the next move is refused.
   */
  function Run(g: Game, i: nat, d: Dir, v: Version): (r: RunResult)
    requires Wf(g) && i < |g.roster|
    ensures r.Ran? ==> var h := r.game;
      && Wf(h) && SameShape(g.grid, h.grid) && |h.roster| == |g.roster|
      && r.steps <= Budget(g, i, d)
      && h.roster[i].pos == Along(g.roster[i].pos, d, r.steps)
      && Refused(h, i, d)
      && h.goldRemaining - TotalGold(h.grid) == g.goldRemaining - TotalGold(g.grid)
      && SameSetting(g, h)
      && h.goldRemaining + Purses(h.roster) == g.goldRemaining + Purses(g.roster)
      && h.pileCount <= g.pileCount && (v == AsWritten ==> h.pileCount == g.pileCount)
      && (h.playing ==> g.playing)
    ensures r.Ran? && r.steps == 0 ==> r.game == g
    decreases Budget(g, i, d)
  {
    match Move(g, i, d, v)
    case Blocked => Ran(g, 0)
    case Fault => RunFault
    case Moved(h) =>
      MoveSpendsBudget(g, i, d, v);
      match Run(h, i, d, v)
      case RunFault => RunFault
      case Ran(h2, n) =>
        assert h.roster[i].pos == Next(g.roster[i].pos, d);
        assert Along(g.roster[i].pos, d, n + 1) == Along(h.roster[i].pos, d, n);
        Ran(h2, n + 1)
  }

  /** From a cell inside the grid, a run takes fewer steps than the grid's longer side. */
  lemma RunIsShort(g: Game, i: nat, d: Dir, v: Version)
    requires Wf(g) && i < |g.roster| && InBounds(g.grid, g.roster[i].pos)
    requires Run(g, i, d, v).Ran?
    ensures Run(g, i, d, v).steps < Max(g.grid.nR, g.grid.nC)
  {
    BudgetBound(g, i, d);
  }

  /** A run ends `steps` cells along d from where it started. */
  lemma RunIsStraight(g: Game, i: nat, d: Dir, v: Version)
    requires Wf(g) && i < |g.roster|
    requires Run(g, i, d, v).Ran?
    ensures var r := Run(g, i, d, v); var p := g.roster[i].pos;
      r.game.roster[i].pos == Pos(p.x + r.steps * DX(d), p.y + r.steps * DY(d))
  {
    AlongIsStraight(g.roster[i].pos, d, Run(g, i, d, v).steps);
  }

}

=== FILE: options.dfy ===
/** The optional value used wherever the server returns NULL or a sentinel. */
module Options {

  datatype Option<+T> = None | Some(value: T)

}

=== FILE: protocol.dfy ===
/**
  The text side of parse_message: taking the command word off a datagram and
  cleaning a player's name, plus the replies the server addresses to one client.
 */
module Protocol {
  import opened Ctype
  import opened Options

  /** Longest player name kept; the rest is cut off. */
  const MaxNameLength := 50

  /** A transport endpoint. The player registry is keyed by the port alone. */
  datatype Addr = Addr(host: nat, port: nat)

  /** The messages the server sends to a single client in answer to a command. */
  datatype Reply =
    | Ok(symbol: char)              // "OK <symbol>"
    | GridSize(nR: int, nC: int)    // "GRID <rows> <cols>"
    | QuitFull                      // "QUIT Game is full: no more players can join."
    | QuitNoName                    // "QUIT Sorry - you must provide player's name."
    | QuitPlaying                   // "QUIT Thanks for playing!"
    | QuitWatching                  // "QUIT Thanks for watching!"
    | QuitReplaced                  // "QUIT You have been replaced by a new spectator."
    | ErrorKeystroke                // "ERROR invalid keystroke"
    | ErrorUnknown                  // "ERROR unable to understand message"

  datatype Sent = Sent(to: Addr, reply: Reply)

  /** The C string a datagram carries: its characters up to the first NUL. */
  function Text(raw: string): (s: string)
    ensures '\0' !in s
    ensures s <= raw
    ensures |s| < |raw| ==> raw[|s|] == '\0'
  {
    if raw == [] || raw[0] == '\0' then [] else [raw[0]] + Text(raw[1..])
  }

  /** The C string of a datagram is all of it when it holds no NUL, and what precedes the first NUL otherwise. */
  lemma TextEndsAtNul(raw: string)
    ensures '\0' !in raw ==> Text(raw) == raw
    ensures forall k :: 0 <= k < |raw| && raw[k] == '\0' && '\0' !in raw[..k] ==> Text(raw) == raw[..k]
  {
  }

  /** The first whitespace at or after index `from`. */
  function FirstSpace(msg: string, from: nat): (r: Option<nat>)
    requires from <= |msg|
    ensures r.Some? ==> from <= r.value < |msg| && IsSpace(msg[r.value])
    ensures r.Some? ==> forall i :: from <= i < r.value ==> !IsSpace(msg[i])
    ensures r.None? ==> forall i :: from <= i < |msg| ==> !IsSpace(msg[i])
    decreases |msg| - from
  {
    if from == |msg| then None
    else if IsSpace(msg[from]) then Some(from)
    else FirstSpace(msg, from + 1)
  }

  /**
    The scan at the top of parse_message: the index of the whitespace that ends
    the command word. None means there is none, and the loop as written then
    walks on past the string's terminator.
   */
  function ScanCommand(msg: string): (r: Option<nat>)
    ensures r.Some? ==> r.value < |msg| && IsSpace(msg[r.value])
    ensures r.Some? ==> forall i :: 0 <= i < r.value ==> !IsSpace(msg[i])
    ensures r.None? <==> forall i :: 0 <= i < |msg| ==> !IsSpace(msg[i])
  {
    FirstSpace(msg, 0)
  }

  /**
    The command word and the remainder after the whitespace that ends it; a
    message with no whitespace is all command and has an empty remainder.
   */
  function SplitCommand(msg: string): (r: (string, string))
    ensures forall i :: 0 <= i < |r.0| ==> !IsSpace(r.0[i])
    ensures (exists i :: 0 <= i < |msg| && IsSpace(msg[i])) ==>
      |r.0| < |msg| && IsSpace(msg[|r.0|]) && msg == r.0 + [msg[|r.0|]] + r.1
    ensures (forall i :: 0 <= i < |msg| ==> !IsSpace(msg[i])) ==> r == (msg, [])
  {
    match ScanCommand(msg)
    case Some(k) =>
      assert msg == msg[..k] + [msg[k]] + msg[k + 1..];
      (msg[..k], msg[k + 1..])
    case None => (msg, [])
  }

  /** On a datagram without NUL, reading the two halves of the raw scan as C strings gives the split. */
  lemma RawSplitWithoutNul(raw: string)
    requires ScanCommand(raw).Some?
    ensures var k := ScanCommand(raw).value;
      '\0' !in raw ==> SplitCommand(raw) == (Text(raw[..k]), Text(raw[k + 1..]))
  {
    var k := ScanCommand(raw).value;
    if '\0' !in raw {
      assert '\0' !in raw[..k] && '\0' !in raw[k + 1..];
      TextEndsAtNul(raw[..k]);
      TextEndsAtNul(raw[k + 1..]);
    }
  }

  /** The characters a name may keep: isgraph or isblank. */
  predicate NameChar(c: char) {
    IsGraph(c) || IsBlank(c)
  }

  /** Replaces every character that is neither graph nor blank by '_'. */
  function Scrub(s: string): (r: string)
    ensures |r| == |s|
    ensures forall i :: 0 <= i < |s| ==> NameChar(r[i])
    ensures forall i :: 0 <= i < |s| ==> (r[i] == s[i] <==> NameChar(s[i]))
    ensures forall i :: 0 <= i < |s| && !NameChar(s[i]) ==> r[i] == '_'
  {
    if s == [] then []
    else [if NameChar(s[0]) then s[0] else '_'] + Scrub(s[1..])
  }

  /** The name a PLAY command registers: cut to MaxNameLength, then scrubbed. */
  function Sanitize(name: string): (r: string)
    ensures |r| == if |name| > MaxNameLength then MaxNameLength else |name|
    ensures forall i :: 0 <= i < |r| ==> NameChar(r[i])
    ensures forall i :: 0 <= i < |r| ==> (r[i] == name[i] <==> NameChar(name[i]))
    ensures forall i :: 0 <= i < |r| && !NameChar(name[i]) ==> r[i] == '_'
  {
    Scrub(if |name| > MaxNameLength then name[..MaxNameLength] else name)
  }

  /** The names the sanitiser leaves alone are exactly the short, clean ones. */
  lemma SanitizeFixpoints(name: string)
    ensures Sanitize(name) == name <==>
      |name| <= MaxNameLength && forall i :: 0 <= i < |name| ==> NameChar(name[i])
  {
    var r := Sanitize(name);
    if |name| <= MaxNameLength && forall i :: 0 <= i < |name| ==> NameChar(name[i]) {
      assert forall i :: 0 <= i < |name| ==> r[i] == name[i];
    }
  }

  /** Sanitising twice is sanitising once. */
  lemma SanitizeIdempotent(name: string)
    ensures Sanitize(Sanitize(name)) == Sanitize(name)
  {
    SanitizeFixpoints(Sanitize(name));
  }

}

=== FILE: server.dfy ===
/**
  Command dispatch (parse_message), admission (add_player), the spectator
  slot, quitting, and the message handler's verdict on whether the loop ends.
  Every transition answers with the replies it addresses to single clients;
  the broadcast refresh sends are not recorded.
 */
module Server {
  import opened Options
  import opened Ctype
  import opened Grids
  import opened Protocol
  import opened Gold
  import opened State
  import opened Movement

  /**
    What handling one datagram does. Handled carries the new state, the
    replies sent, and the rand() pairs left over. Stalled means the supplied
    draws ran out while the sampler was still searching. Crashed means the
    code reaches undefined behaviour: a NULL dereference, a division by zero,
    or a read past the end of the message.
   */
  datatype Outcome = Handled(game: Game, sent: seq<Sent>, draws: seq<(nat, nat)>) | Stalled | Crashed

  /** The roster check of PLAY: as written a full roster is one with more than MaxPlayers players. */
  predicate RosterFull(v: Version, g: Game) {
    match v
    case AsWritten => g.playerCount > MaxPlayers
    case Corrected => g.playerCount >= MaxPlayers
  }

  /** curr_symbol += 1 on an 8-bit char. */
  function NextSymbol(c: char): (r: char)
    ensures c as int < 255 ==> r as int == c as int + 1
  {
    if c as int < 255 then (c as int + 1) as char else 0 as char
  }

  /** The character a new player is placed on: gold once room cells no longer outnumber piles. */
  function PlacementSymbol(g: Game): (c: char)
    ensures c == '*' <==> RoomSpot(g.grid) <= g.pileCount
    ensures c == '.' <==> RoomSpot(g.grid) > g.pileCount
  {
    if RoomSpot(g.grid) <= g.pileCount then '*' else '.'
  }

  /**
    The body of add_player once a position is drawn: the player is created
    there under curr_symbol, registered under its port unless the port is
    taken, appended to the symbol index, written on the grid, and handed any
    gold lying there by pickup_gold.
   */
  function Admit(v: Version, g: Game, from: Addr, name: string, pos: Pos): (h: Game)
    requires Wf(g) && InBounds(g.grid, pos)
    ensures Wf(h) && SameShape(g.grid, h.grid) && |h.roster| == |g.roster| + 1
    ensures h.mapGrid == g.mapGrid && h.spectator == g.spectator && h.playing == g.playing
    ensures h.nextSymbol == g.nextSymbol && h.playerCount == g.playerCount
    ensures h.byPort == if from.port in g.byPort then g.byPort else g.byPort[from.port := |g.roster|]
    ensures h.roster[..|g.roster|] == g.roster
    ensures var amount := GetGold(g.grid, pos.x, pos.y);
      && h.roster[|g.roster|] == Player(name, g.nextSymbol, from, amount, amount, true, pos, pos, false)
      && h.goldRemaining == g.goldRemaining - amount
      && h.pileCount == (if v == Corrected && amount != 0 then g.pileCount - 1 else g.pileCount)
      && TotalGold(h.grid) == TotalGold(g.grid) - amount
      && At(h.grid, pos) == Cell(g.nextSymbol, 0)
    ensures forall q :: InBounds(g.grid, q) && q != pos ==> At(h.grid, q) == At(g.grid, q)
  {
    var k := |g.roster|;
    var placed := Enroll(g, from, name, pos);
    var h := PickupGold(v, placed, k, pos, None);
    PickupFrame(v, placed, k, pos, None);
    assert h.roster[..k] == g.roster by {
      assert forall j :: 0 <= j < k ==> h.roster[j] == placed.roster[j] == g.roster[j];
    }
    h
  }

  /**
    The registration half of add_player: the new player, created by
    player_new at pos, is registered under its port unless the port is taken,
    appended to the symbol index and written on the grid.
   */
  function Enroll(g: Game, from: Addr, name: string, pos: Pos): (h: Game)
    requires Wf(g) && InBounds(g.grid, pos)
    ensures Wf(h) && |h.roster| == |g.roster| + 1
    ensures h.roster == g.roster + [NewPlayer(from, name, g.nextSymbol, true, pos)]
    ensures h.byPort == if from.port in g.byPort then g.byPort else g.byPort[from.port := |g.roster|]
    ensures h.grid == SetChar(g.grid, g.nextSymbol, pos).0
    ensures h == g.(grid := h.grid, roster := h.roster, byPort := h.byPort)
  {
    var k := |g.roster|;
    g.(grid := SetChar(g.grid, g.nextSymbol, pos).0,
       roster := g.roster + [NewPlayer(from, name, g.nextSymbol, true, pos)],
       byPort := if from.port in g.byPort then g.byPort else g.byPort[from.port := k])
  }

  /**
    add_player: a cell showing the placement symbol is drawn and the player
    admitted there, answered with OK and GRID; then refresh runs and the
    symbol and player counters move on.
   */
  function AddPlayer(v: Version, g: Game, from: Addr, name: string, draws: seq<(nat, nat)>): (r: Outcome)
    requires Wf(g)
    ensures r.Crashed? <==> g.grid.nC == 0 || g.grid.nR == 0
    ensures r.Stalled? ==> (g.grid.nC > 0 && g.grid.nR > 0 &&
      forall j :: 0 <= j < |draws| ==> !Hits(g.grid, PlacementSymbol(g), draws[j]))
    ensures r.Handled? ==> var h := r.game;
      && Wf(h) && SameShape(g.grid, h.grid) && h.mapGrid == g.mapGrid && h.spectator == g.spectator
      && |h.roster| == |g.roster| + 1
      && h.nextSymbol == NextSymbol(g.nextSymbol) && h.playerCount == g.playerCount + 1
      && h.byPort == (if from.port in g.byPort then g.byPort else g.byPort[from.port := |g.roster|])
      && (h.playing <==> g.playing && h.goldRemaining != 0)
      && r.sent == [Sent(from, Ok(g.nextSymbol)), Sent(from, GridSize(g.grid.nR, g.grid.nC))]
      && |r.draws| < |draws|
    ensures r.Handled? ==> var p := r.game.roster[|g.roster|];
      && GeneratePosition(g.grid, PlacementSymbol(g), draws) == Found(p.pos, r.draws)
      && InBounds(g.grid, p.pos) && GetChar(g.grid, p.pos.x, p.pos.y) == PlacementSymbol(g)
      && Seated(v, g, r.game, from, name, p.pos)
    ensures r.Handled? ==> forall q :: InBounds(g.grid, q) && q != r.game.roster[|g.roster|].pos ==>
      At(r.game.grid, q) == At(g.grid, q)
    ensures r.Handled? ==> forall j :: 0 <= j < |g.roster| ==>
      r.game.roster[j] == g.roster[j].(pickedUp := r.game.roster[j].pickedUp)
  {
    if g.grid.nC == 0 || g.grid.nR == 0 then Crashed
    else
      match GeneratePosition(g.grid, PlacementSymbol(g), draws)
      case Exhausted => Stalled
      case Found(pos, rest) =>
        var h := Seat(v, g, from, name, pos);
        assert h.roster[|g.roster|].pos == pos;
        Handled(h,
                [Sent(from, Ok(g.nextSymbol)), Sent(from, GridSize(g.grid.nR, g.grid.nC))],
                rest)
  }

  /**
    h has the newcomer from the address from, called name, standing at pos
    as the last of its roster: it took the next symbol, is active, and
    picked up whatever gold lay at pos, which leaves the cell showing its
    symbol over no gold. Under Corrected a nonzero pickup takes one pile
    off the count; under AsWritten the count stays.
   */
  ghost predicate Seated(v: Version, g: Game, h: Game, from: Addr, name: string, pos: Pos)
    requires Wf(g) && Wf(h) && |h.roster| == |g.roster| + 1
  {
    var amount := GetGold(g.grid, pos.x, pos.y);
    && h.roster[|g.roster|] == Player(name, g.nextSymbol, from, amount, h.roster[|g.roster|].pickedUp, true, pos, pos, false)
    && InBounds(h.grid, pos) && At(h.grid, pos) == Cell(g.nextSymbol, 0)
    && h.goldRemaining == g.goldRemaining - amount
    && h.pileCount == (if v == Corrected && amount != 0 then g.pileCount - 1 else g.pileCount)
    && TotalGold(h.grid) == TotalGold(g.grid) - amount
  }

  /**
    The rest of add_player once pos is drawn: the player is admitted there,
    refresh runs, and the symbol and player counters move on.
   */
  function Seat(v: Version, g: Game, from: Addr, name: string, pos: Pos): (h: Game)
    requires Wf(g) && InBounds(g.grid, pos)
    ensures Wf(h) && SameShape(g.grid, h.grid) && h.mapGrid == g.mapGrid && h.spectator == g.spectator
    ensures |h.roster| == |g.roster| + 1
    ensures h.nextSymbol == NextSymbol(g.nextSymbol) && h.playerCount == g.playerCount + 1
    ensures h.byPort == (if from.port in g.byPort then g.byPort else g.byPort[from.port := |g.roster|])
    ensures h.playing <==> g.playing && h.goldRemaining != 0
    ensures Seated(v, g, h, from, name, pos)
    ensures forall q :: InBounds(g.grid, q) && q != pos ==> At(h.grid, q) == At(g.grid, q)
    ensures forall j :: 0 <= j < |g.roster| ==> h.roster[j] == g.roster[j].(pickedUp := h.roster[j].pickedUp)
  {
    var a := Admit(v, g, from, name, pos);
    assert forall j :: 0 <= j < |g.roster| ==> a.roster[j] == g.roster[j] by {
      assert forall j :: 0 <= j < |g.roster| ==> a.roster[..|g.roster|][j] == a.roster[j];
    }
    Refresh(a).(nextSymbol := NextSymbol(g.nextSymbol), playerCount := g.playerCount + 1)
  }

  /**
    PLAY: a full roster or an empty name is answered with QUIT and nothing
    else happens; otherwise the sanitised name is admitted.
   */
  function Play(v: Version, g: Game, from: Addr, name: string, draws: seq<(nat, nat)>): (r: Outcome)
    requires Wf(g)
    ensures RosterFull(v, g) ==> r == Handled(g, [Sent(from, QuitFull)], draws)
    ensures !RosterFull(v, g) && name == [] ==> r == Handled(g, [Sent(from, QuitNoName)], draws)
    ensures !RosterFull(v, g) && name != [] ==> r == AddPlayer(v, g, from, Sanitize(name), draws)
  {
    if RosterFull(v, g) then Handled(g, [Sent(from, QuitFull)], draws)
    else if name == [] then Handled(g, [Sent(from, QuitNoName)], draws)
    else AddPlayer(v, g, from, Sanitize(name), draws)
  }

  /**
    SPECTATE: the sender becomes the spectator; an incumbent is told it has
    been replaced. The newcomer gets GRID, then refresh runs.
   */
  function Spectate(g: Game, from: Addr, draws: seq<(nat, nat)>): (r: Outcome)
    requires Wf(g)
    ensures r.Handled? && Wf(r.game)
    ensures r.game.spectator == Some(from)
    ensures r.game.grid == g.grid && r.game.roster == Refresh(g).roster && r.game.byPort == g.byPort
    ensures r.game.goldRemaining == g.goldRemaining && r.game.pileCount == g.pileCount
    ensures r.game.playerCount == g.playerCount && r.game.nextSymbol == g.nextSymbol && r.game.mapGrid == g.mapGrid
    ensures r.game.playing <==> g.playing && g.goldRemaining != 0
    ensures r.sent == (if g.spectator.Some? then [Sent(g.spectator.value, QuitReplaced)] else [])
                      + [Sent(from, GridSize(g.grid.nR, g.grid.nC))]
    ensures r.draws == draws
  {
    var notice := if g.spectator.Some? then [Sent(g.spectator.value, QuitReplaced)] else [];
    Handled(Refresh(g.(spectator := Some(from))), notice + [Sent(from, GridSize(g.grid.nR, g.grid.nC))], draws)
  }

  /**
    KEY Q. The reply depends on whether the sender is the spectator. The
    player registered under the sender's port is then deactivated, the map's
    character restored on the grid at their position, and refresh runs.
    As written the lookup's answer is used unchecked, so a sender that is not
    registered (the spectator, say) crashes the server, and a player who has
    already quit is processed again. Corrected, such senders only get the reply.
   */
  function Quit(v: Version, g: Game, from: Addr, draws: seq<(nat, nat)>): (r: Outcome)
    requires Wf(g)
    ensures r.Crashed? <==> v == AsWritten && from.port !in g.byPort
    ensures r.Handled? ==> r.draws == draws
    ensures r.Handled? ==> r.sent == [Sent(from, if g.spectator == Some(from) then QuitWatching else QuitPlaying)]
    ensures r.Handled? ==> Wf(r.game) && SameShape(g.grid, r.game.grid) && |r.game.roster| == |g.roster|
    ensures r.Handled? && (from.port !in g.byPort || (v == Corrected && !g.roster[g.byPort[from.port]].active)) ==>
      r.game == g
    ensures r.Handled? && from.port in g.byPort && (v == AsWritten || g.roster[g.byPort[from.port]].active) ==>
      var i := g.byPort[from.port]; var p := g.roster[i]; var h := r.game;
      && !h.roster[i].active
      && SameIdentity(p.(active := false), h.roster[i])
      && h.roster[i].purse == p.purse && h.roster[i].pos == p.pos && h.roster[i].prev == p.prev
      && h.roster[i].inPassage == p.inPassage
      && (forall k :: 0 <= k < |g.roster| && k != i ==> SamePlayer(g, h, k))
      && (InBounds(g.grid, p.pos) ==> GetChar(h.grid, p.pos.x, p.pos.y) == GetChar(g.mapGrid, p.pos.x, p.pos.y))
      && GetGold(h.grid, p.pos.x, p.pos.y) == GetGold(g.grid, p.pos.x, p.pos.y)
      && (forall q :: InBounds(g.grid, q) && q != p.pos ==> At(h.grid, q) == At(g.grid, q))
      && TotalGold(h.grid) == TotalGold(g.grid) && h.goldRemaining == g.goldRemaining
      && SameSetting(g, h) && h.pileCount == g.pileCount
      && (h.playing <==> g.playing && g.goldRemaining != 0)
  {
    var reply := Sent(from, if g.spectator == Some(from) then QuitWatching else QuitPlaying);
    match Lookup(g, from)
    case None => if v == AsWritten then Crashed else Handled(g, [reply], draws)
    case Some(i) =>
      var p := g.roster[i];
      if v == Corrected && !p.active then Handled(g, [reply], draws)
      else
        var terrain := GetChar(g.mapGrid, p.pos.x, p.pos.y);
        var h := g.(roster := g.roster[i := p.(active := false)], grid := SetChar(g.grid, terrain, p.pos).0);
        Handled(Refresh(h), [reply], draws)
  }

  /** The movement a keystroke names, and whether it repeats until blocked. */
  function KeyMove(c: char): (r: Option<(Dir, bool)>)
    ensures r.Some? ==> (r.value.1 <==> IsUpper(c))
    ensures r.Some? <==> c in "hlkjyubnHLKJYUBN"
  {
    match c
    case 'h' => Some((Left, false))
    case 'l' => Some((Right, false))
    case 'k' => Some((Up, false))
    case 'j' => Some((Down, false))
    case 'y' => Some((UpLeft, false))
    case 'u' => Some((UpRight, false))
    case 'b' => Some((DownLeft, false))
    case 'n' => Some((DownRight, false))
    case 'H' => Some((Left, true))
    case 'L' => Some((Right, true))
    case 'K' => Some((Up, true))
    case 'J' => Some((Down, true))
    case 'Y' => Some((UpLeft, true))
    case 'U' => Some((UpRight, true))
    case 'B' => Some((DownLeft, true))
    case 'N' => Some((DownRight, true))
    case _ => None
  }

  /**
    A movement keystroke from a sender that is not the spectator. As written
    the sender is looked up unchecked inside move; corrected, an unregistered
    or inactive sender is ignored. A refused move changes nothing.
   */
  function KeyMovement(v: Version, g: Game, from: Addr, d: Dir, repeat: bool, draws: seq<(nat, nat)>): (r: Outcome)
    requires Wf(g)
    ensures r.Handled? ==> r.sent == [] && r.draws == draws && Wf(r.game)
    ensures r.Handled? ==> SameShape(g.grid, r.game.grid) && |r.game.roster| == |g.roster|
    ensures r.Handled? ==> r.game.goldRemaining - TotalGold(r.game.grid) == g.goldRemaining - TotalGold(g.grid)
    ensures from.port !in g.byPort ==> r == (if v == AsWritten then Crashed else Handled(g, [], draws))
    ensures v == Corrected && from.port in g.byPort && !g.roster[g.byPort[from.port]].active ==>
      r == Handled(g, [], draws)
    ensures from.port in g.byPort && !repeat && (v == AsWritten || g.roster[g.byPort[from.port]].active) ==>
      var i := g.byPort[from.port];
      && (r.Crashed? <==> Move(g, i, d, v).Fault?)
      && (r.Handled? ==> if Refused(g, i, d) then r.game == g else r.game == Move(g, i, d, v).game)
      && (r.Handled? && !Refused(g, i, d) ==> r.game.roster[i].pos == Target(g, i, d))
    ensures from.port in g.byPort && repeat && (v == AsWritten || g.roster[g.byPort[from.port]].active) ==>
      var i := g.byPort[from.port];
      && (r.Crashed? <==> Run(g, i, d, v).RunFault?)
      && (r.Handled? ==> r.game == Run(g, i, d, v).game && Refused(r.game, i, d))
    ensures r.Stalled? ==> false
  {
    match Lookup(g, from)
    case None => if v == AsWritten then Crashed else Handled(g, [], draws)
    case Some(i) =>
      if v == Corrected && !g.roster[i].active then Handled(g, [], draws)
      else if repeat then
        match Run(g, i, d, v)
        case RunFault => Crashed
        case Ran(h, _) => Handled(h, [], draws)
      else
        match Move(g, i, d, v)
        case Fault => Crashed
        case Blocked => Handled(g, [], draws)
        case Moved(h) => Handled(h, [], draws)
  }

  /** The keystroke a KEY command carries: the first character after the command word. */
  function KeyOf(remainder: string): char {
    if remainder == [] then '\0' else remainder[0]
  }

  /**
    KEY: Q quits whoever sends it; any other key from the spectator is
    ignored; a movement key moves the sender; anything else is answered
    with ERROR.
   */
  function Key(v: Version, g: Game, from: Addr, remainder: string, draws: seq<(nat, nat)>): (r: Outcome)
    requires Wf(g)
    ensures KeyOf(remainder) == 'Q' ==> r == Quit(v, g, from, draws)
    ensures KeyOf(remainder) != 'Q' && g.spectator == Some(from) ==> r == Handled(g, [], draws)
    ensures KeyOf(remainder) != 'Q' && g.spectator != Some(from) && KeyMove(KeyOf(remainder)).None? ==>
      r == Handled(g, [Sent(from, ErrorKeystroke)], draws)
    ensures KeyOf(remainder) != 'Q' && g.spectator != Some(from) && KeyMove(KeyOf(remainder)).Some? ==>
      r == KeyMovement(v, g, from, KeyMove(KeyOf(remainder)).value.0, KeyMove(KeyOf(remainder)).value.1, draws)
    ensures r.Handled? ==> Wf(r.game) && SameShape(g.grid, r.game.grid)
  {
    var c := KeyOf(remainder);
    if c == 'Q' then Quit(v, g, from, draws)
    else if g.spectator == Some(from) then Handled(g, [], draws)
    else
      match KeyMove(c)
      case None => Handled(g, [Sent(from, ErrorKeystroke)], draws)
      case Some((d, repeat)) => KeyMovement(v, g, from, d, repeat, draws)
  }

  /**
    The branches of parse_message once the message is split into the command
    word and the remainder: PLAY, SPECTATE and KEY go to their handlers, and
    anything else is answered with ERROR.
   */
  function Route(v: Version, g: Game, from: Addr, cmd: string, rest: string, draws: seq<(nat, nat)>): (r: Outcome)
    requires Wf(g)
    ensures cmd == "PLAY" ==> r == Play(v, g, from, rest, draws)
    ensures cmd == "SPECTATE" ==> r == Spectate(g, from, draws)
    ensures cmd == "KEY" ==> r == Key(v, g, from, rest, draws)
    ensures cmd != "PLAY" && cmd != "SPECTATE" && cmd != "KEY" ==> r == Handled(g, [Sent(from, ErrorUnknown)], draws)
  {
    if cmd == "PLAY" then Play(v, g, from, rest, draws)
    else if cmd == "SPECTATE" then Spectate(g, from, draws)
    else if cmd == "KEY" then Key(v, g, from, rest, draws)
    else Handled(g, [Sent(from, ErrorUnknown)], draws)
  }

  /**
    parse_message on a text without NUL. The command word runs up to the
    first whitespace; as written a message without whitespace makes the
    scan run past its end.
   */
  function Dispatch(v: Version, g: Game, from: Addr, msg: string, draws: seq<(nat, nat)>): (r: Outcome)
    requires Wf(g)
    ensures v == AsWritten && ScanCommand(msg).None? ==> r.Crashed?
    ensures (v == Corrected || ScanCommand(msg).Some?) ==> var (cmd, rest) := SplitCommand(msg);
      && (cmd == "PLAY" ==> r == Play(v, g, from, rest, draws))
      && (cmd == "SPECTATE" ==> r == Spectate(g, from, draws))
      && (cmd == "KEY" ==> r == Key(v, g, from, rest, draws))
      && (cmd != "PLAY" && cmd != "SPECTATE" && cmd != "KEY" ==> r == Handled(g, [Sent(from, ErrorUnknown)], draws))
  {
    if v == AsWritten && ScanCommand(msg).None? then Crashed
    else
      var (cmd, rest) := SplitCommand(msg);
      Route(v, g, from, cmd, rest, draws)
  }

  /**
    handleMessage and parse_message on one datagram. As written the scan for
    whitespace walks the datagram's bytes, past a NUL if need be, and
    undefined behaviour follows when none is whitespace; the command word and
    the remainder are then read as C strings, each ending at its first NUL.
    Corrected, the datagram is read as a C string, ending at its first NUL,
    and dispatched.
   */
  function Handle(v: Version, g: Game, from: Addr, raw: string, draws: seq<(nat, nat)>): (r: Outcome)
    requires Wf(g)
    ensures '\0' !in raw ==> r == Dispatch(v, g, from, raw, draws)
    ensures v == AsWritten && ScanCommand(raw).None? ==> r.Crashed?
    ensures v == AsWritten && ScanCommand(raw).Some? ==> var k := ScanCommand(raw).value;
      r == Route(AsWritten, g, from, Text(raw[..k]), Text(raw[k + 1..]), draws)
    ensures v == Corrected ==> r == Dispatch(Corrected, g, from, Text(raw), draws)
    ensures v == Corrected ==> forall k :: 0 <= k < |raw| && raw[k] == '\0' && '\0' !in raw[..k] ==>
      r == Dispatch(Corrected, g, from, raw[..k], draws)
  {
    match v
    case AsWritten =>
      (match ScanCommand(raw)
       case None => Crashed
       case Some(k) =>
         RawSplitWithoutNul(raw);
         Route(AsWritten, g, from, Text(raw[..k]), Text(raw[k + 1..]), draws))
    case Corrected =>
      TextEndsAtNul(raw);
      Dispatch(Corrected, g, from, Text(raw), draws)
  }

  /**
    A NUL before the first whitespace does not stop the scan as written:
    "KEY\0 Q" is the command KEY with the remainder Q.
   */
  lemma NulBeforeSpace(g: Game, from: Addr, draws: seq<(nat, nat)>)
    requires Wf(g)
    ensures Handle(AsWritten, g, from, "KEY\0 Q", draws) == Key(AsWritten, g, from, "Q", draws)
    ensures Handle(Corrected, g, from, "KEY\0 Q", draws) == Key(Corrected, g, from, [], draws)
  {
    var raw := "KEY\0 Q";
    assert ScanCommand(raw) == Some(4);
    assert Text(raw[..4]) == "KEY";
    assert Text(raw[5..]) == "Q";
    assert Text(raw) == "KEY";
    assert ScanCommand("KEY").None?;
    assert SplitCommand("KEY") == ("KEY", []);
  }

  /** The handler's answer: true, ending the message loop, once the game is no longer playing. */
  predicate LoopEnds(h: Game) {
    !h.playing
  }

}

=== FILE: state.dfy ===
/**
  The game record the server owns (game_t, player_t), its initial state
  (game_new, player_new, the start-up sequence of main), and the two
  helpers every transition ends with: pickup_gold and the state effects of
  refresh.
 */
module State {
  import opened Options
  import opened Grids
  import opened Protocol
  import opened Gold

  const MaxPlayers := 26

  /** Which behaviour a transition follows: the code as written, or with its defects repaired. */
  datatype Version = AsWritten | Corrected

  datatype Player = Player(
    name: string,
    symbol: char,
    addr: Addr,
    purse: int,       // gold_number
    pickedUp: int,    // gold_picked_up
    active: bool,
    pos: Pos,
    prev: Pos,
    inPassage: bool)

  /**
    game_t. `roster` is the symbol index (every player ever admitted, in
    admission order); `byPort` is the player hashtable, from a port to a
    roster index. Every player's own grid is loaded from the map file and its
    characters never change, so one `mapGrid` stands for all of them.
   */
  datatype Game = Game(
    playing: bool,
    goldRemaining: int,
    pileCount: int,
    playerCount: int,
    nextSymbol: char,
    grid: Grid,
    mapGrid: Grid,
    roster: seq<Player>,
    byPort: map<nat, nat>,
    spectator: Option<Addr>)

  /** The shape every game record has: grids of one size, registry entries naming roster slots. */
  predicate Wf(g: Game) {
    && Valid(g.grid)
    && Valid(g.mapGrid)
    && g.grid.nR == g.mapGrid.nR
    && g.grid.nC == g.mapGrid.nC
    && forall port :: port in g.byPort ==> g.byPort[port] < |g.roster|
  }

  /** The counters, the map, the registry and the spectator are left alone, and the grid keeps its shape. */
  predicate SameSetting(g: Game, h: Game) {
    && h.playerCount == g.playerCount
    && h.nextSymbol == g.nextSymbol
    && h.mapGrid == g.mapGrid
    && h.byPort == g.byPort
    && h.spectator == g.spectator
    && SameShape(g.grid, h.grid)
  }

  /** Everything but the roster, the grid and the gold counters is left alone. */
  predicate SameFrame(g: Game, h: Game) {
    h.playing == g.playing && SameSetting(g, h)
  }

  /** Player k of h is player k of g, apart perhaps from gold_picked_up, which refresh resets. */
  predicate SamePlayer(g: Game, h: Game, k: nat)
    requires k < |g.roster| && k < |h.roster|
  {
    h.roster[k] == g.roster[k].(pickedUp := h.roster[k].pickedUp)
  }

  /** b is the same player as a: same name, letter, address and active flag. */
  predicate SameIdentity(a: Player, b: Player) {
    b.name == a.name && b.symbol == a.symbol && b.addr == a.addr && b.active == a.active
  }

  /** The gold held in the players' purses. */
  function Purses(roster: seq<Player>): int {
    if roster == [] then 0 else roster[0].purse + Purses(roster[1..])
  }

  lemma {:induction false} PursesUpdate(roster: seq<Player>, i: nat, p: Player)
    requires i < |roster|
    ensures Purses(roster[i := p]) == Purses(roster) - roster[i].purse + p.purse
  {
    if i == 0 {
      assert roster[i := p][1..] == roster[1..];
    } else {
      PursesUpdate(roster[1..], i - 1, p);
      assert roster[i := p][1..] == roster[1..][i - 1 := p];
    }
  }

  lemma {:induction false} PursesAppend(roster: seq<Player>, p: Player)
    ensures Purses(roster + [p]) == Purses(roster) + p.purse
  {
    if roster != [] {
      PursesAppend(roster[1..], p);
      assert (roster + [p])[1..] == roster[1..] + [p];
    }
  }

  lemma {:induction false} PursesAgree(a: seq<Player>, b: seq<Player>)
    requires |a| == |b|
    requires forall k :: 0 <= k < |a| ==> a[k].purse == b[k].purse
    ensures Purses(a) == Purses(b)
  {
    if a != [] {
      PursesAgree(a[1..], b[1..]);
    }
  }

  /** When only purse i differs, by delta, the purses differ by delta. */
  lemma {:induction false} PursesShift(a: seq<Player>, b: seq<Player>, i: nat, delta: int)
    requires |a| == |b| && i < |a|
    requires b[i].purse == a[i].purse + delta
    requires forall k :: 0 <= k < |a| && k != i ==> a[k].purse == b[k].purse
    ensures Purses(b) == Purses(a) + delta
  {
    var c := a[i := b[i]];
    PursesUpdate(a, i, b[i]);
    PursesAgree(c, b);
  }

  /** player_new: an empty purse, at pos, with the previous position equal to pos. */
  function NewPlayer(addr: Addr, name: string, symbol: char, active: bool, pos: Pos): (p: Player)
    ensures p.addr == addr && p.name == name && p.symbol == symbol && p.active == active
    ensures p.purse == 0 && p.pickedUp == 0 && !p.inPassage
    ensures p.pos == pos && p.prev == pos
  {
    Player(name, symbol, addr, 0, 0, active, pos, pos, false)
  }

  /** game_new, with the two grids main has loaded. gold_pile_number is set by main afterwards. */
  function GameNew(grid: Grid, mapGrid: Grid): (g: Game)
    ensures g.playing && g.goldRemaining == GoldTotal
    ensures g.playerCount == 0 && g.nextSymbol == 'A'
    ensures g.roster == [] && g.byPort == map[] && g.spectator == None
  {
    Game(true, GoldTotal, 0, 0, 'A', grid, mapGrid, [], map[], None)
  }

  /** get_player: the roster slot the sender's port is registered under. */
  function Lookup(g: Game, a: Addr): (r: Option<nat>)
    requires Wf(g)
    ensures r.Some? <==> a.port in g.byPort
    ensures r.Some? ==> r.value == g.byPort[a.port] && r.value < |g.roster|
  {
    if a.port in g.byPort then Some(g.byPort[a.port]) else None
  }

  /** set_find on the symbol index: the player admitted under symbol c. */
  function FindSymbol(roster: seq<Player>, c: char): (r: Option<nat>)
    ensures r.Some? ==> r.value < |roster| && roster[r.value].symbol == c
    ensures r.Some? ==> forall k :: 0 <= k < r.value ==> roster[k].symbol != c
    ensures r.None? <==> forall k :: 0 <= k < |roster| ==> roster[k].symbol != c
  {
    if roster == [] then None
    else if roster[0].symbol == c then Some(0)
    else
      var r := FindSymbol(roster[1..], c);
      assert forall k :: 1 <= k < |roster| ==> roster[k] == roster[1..][k - 1];
      if r.Some? then Some(r.value + 1) else None
  }

  /**
    The grid half of pickup_gold: the gold lying at `at` is read and the cell
    zeroed. Outside the grid the amount read is the sentinel -1 and nothing
    is written, as in the code.
   */
  function Collect(grid: Grid, at: Pos): (r: (Grid, int))
    requires Valid(grid)
    ensures Valid(r.0) && SameShape(grid, r.0)
    ensures r.1 == GetGold(grid, at.x, at.y)
    ensures InBounds(grid, at) ==> GetGold(r.0, at.x, at.y) == 0
    ensures InBounds(grid, at) ==> TotalGold(r.0) == TotalGold(grid) - r.1
    ensures forall q :: InBounds(grid, q) ==> GetChar(r.0, q.x, q.y) == GetChar(grid, q.x, q.y)
    ensures forall q :: InBounds(grid, q) && q != at ==> At(r.0, q) == At(grid, q)
  {
    (SetGold(grid, 0, at).0, GetGold(grid, at.x, at.y))
  }

  /** The overwrite pickup_gold may make first: `c` written at `at`, if there is one. */
  function Mark(grid: Grid, c: Option<char>, at: Pos): (r: Grid)
    requires Valid(grid)
    ensures Valid(r) && SameShape(grid, r)
    ensures forall q :: InBounds(grid, q) ==> GetGold(r, q.x, q.y) == GetGold(grid, q.x, q.y)
    ensures forall q :: InBounds(grid, q) && (c.None? || q != at) ==> At(r, q) == At(grid, q)
    ensures c.Some? && InBounds(grid, at) ==> GetChar(r, at.x, at.y) == c.value
    ensures TotalGold(r) == TotalGold(grid)
  {
    if c.Some? then SetChar(grid, c.value, at).0 else grid
  }

  /**
    pickup_gold: optionally writes `overwrite` on the player's own cell first,
    then moves the gold at `at` into the player's purse. The cell is zeroed,
    the purse and gold_picked_up receive the amount, gold_remaining loses it.
    As written gold_pile_number is left alone; corrected, a nonzero pickup
    takes one pile off it.
   */
  function PickupGold(v: Version, g: Game, i: nat, at: Pos, overwrite: Option<char>): (r: Game)
    requires Wf(g) && i < |g.roster|
    ensures Wf(r) && SameFrame(g, r) && |r.roster| == |g.roster|
    ensures var amount := GetGold(g.grid, at.x, at.y);
      && r.goldRemaining == g.goldRemaining - amount
      && r.pileCount == (if v == Corrected && amount != 0 then g.pileCount - 1 else g.pileCount)
      && r.roster[i] == g.roster[i].(purse := g.roster[i].purse + amount, pickedUp := amount)
      && (InBounds(g.grid, at) ==> GetGold(r.grid, at.x, at.y) == 0)
      && (InBounds(g.grid, at) ==> TotalGold(r.grid) == TotalGold(g.grid) - amount)
    ensures forall k :: 0 <= k < |g.roster| && k != i ==> r.roster[k] == g.roster[k]
    ensures forall q :: InBounds(g.grid, q) && q != at ==> GetGold(r.grid, q.x, q.y) == GetGold(g.grid, q.x, q.y)
  {
    var p := g.roster[i];
    var marked := Mark(g.grid, overwrite, p.pos);
    assert GetGold(marked, at.x, at.y) == GetGold(g.grid, at.x, at.y);
    var (grid, amount) := Collect(marked, at);
    Credit(g.(grid := grid,
              goldRemaining := g.goldRemaining - amount,
              pileCount := if v == Corrected && amount != 0 then g.pileCount - 1 else g.pileCount),
           i, amount)
  }

  /** The amount goes into player i's purse and becomes its gold_picked_up; nothing else changes. */
  function Credit(g: Game, i: nat, amount: int): (r: Game)
    requires Wf(g) && i < |g.roster|
    ensures Wf(r) && SameFrame(g, r) && |r.roster| == |g.roster|
    ensures r.grid == g.grid && r.goldRemaining == g.goldRemaining && r.pileCount == g.pileCount
    ensures r.roster[i] == g.roster[i].(purse := g.roster[i].purse + amount, pickedUp := amount)
    ensures forall k :: 0 <= k < |g.roster| && k != i ==> r.roster[k] == g.roster[k]
  {
    g.(roster := g.roster[i := g.roster[i].(purse := g.roster[i].purse + amount, pickedUp := amount)])
  }

  /**
    The characters pickup_gold leaves: the overwrite, if any, on the player's
    own cell and every other character as it was; no cell but the one it reads
    and the one it overwrites changes at all.
   */
  lemma PickupFrame(v: Version, g: Game, i: nat, at: Pos, overwrite: Option<char>)
    requires Wf(g) && i < |g.roster|
    ensures var r := PickupGold(v, g, i, at, overwrite).grid;
      && (forall q :: InBounds(g.grid, q) && (overwrite.None? || q != g.roster[i].pos) ==>
            GetChar(r, q.x, q.y) == GetChar(g.grid, q.x, q.y))
      && (overwrite.Some? && InBounds(g.grid, g.roster[i].pos) ==>
            GetChar(r, g.roster[i].pos.x, g.roster[i].pos.y) == overwrite.value)
      && (forall q :: InBounds(g.grid, q) && q != at && (overwrite.None? || q != g.roster[i].pos) ==>
            At(r, q) == At(g.grid, q))
  {
    var marked := Mark(g.grid, overwrite, g.roster[i].pos);
    assert PickupGold(v, g, i, at, overwrite).grid == Collect(marked, at).0;
  }

  /** A player refresh reaches: active and registered in the player hashtable. */
  predicate Reached(g: Game, i: nat) {
    i < |g.roster| && g.roster[i].active && i in g.byPort.Values
  }

  /**
    The state effects of refresh. Sending GOLD resets gold_picked_up of every
    player it reaches; once no gold remains the game stops playing. Nothing
    else changes.
   */
  function Refresh(g: Game): (r: Game)
    requires Wf(g)
    ensures Wf(r)
    ensures r.playing <==> g.playing && g.goldRemaining != 0
    ensures r.grid == g.grid && r.goldRemaining == g.goldRemaining
    ensures r.pileCount == g.pileCount && r.playerCount == g.playerCount && r.nextSymbol == g.nextSymbol
    ensures r.mapGrid == g.mapGrid && r.byPort == g.byPort && r.spectator == g.spectator
    ensures |r.roster| == |g.roster|
    ensures forall i :: 0 <= i < |g.roster| ==> r.roster[i] == g.roster[i].(pickedUp := r.roster[i].pickedUp)
    ensures forall i :: 0 <= i < |g.roster| && Reached(g, i) ==> r.roster[i].pickedUp == 0
    ensures forall i :: 0 <= i < |g.roster| && !Reached(g, i) ==> r.roster[i] == g.roster[i]
  {
    var roster := seq(|g.roster|, i requires 0 <= i < |g.roster| =>
      if Reached(g, i) then g.roster[i].(pickedUp := 0) else g.roster[i]);
    g.(roster := roster, playing := if g.goldRemaining == 0 then false else g.playing)
  }

  datatype Startup = Started(game: Game, rest: seq<(nat, nat)>) | TooFewRoomSpots | StartStalled

  /**
    The start-up sequence of main: game_new, the master grid loaded from the
    map lines, gold generated on it (values and cells feed rand()), and the
    exit when generate_gold answers 1. Every player's own grid is the same map.
   */
  function Init(lines: seq<string>, values: seq<nat>, cells: seq<(nat, nat)>): (r: Startup)
    ensures r.TooFewRoomSpots? <==> RoomCount(lines) < 10
    ensures r.Started? ==> Wf(r.game) && r.game.playing && r.game.roster == [] && r.game.spectator == None
    ensures r.Started? ==> r.game.mapGrid == Load(lines) && SameShape(r.game.grid, r.game.mapGrid)
    ensures r.Started? ==>
      GoldMinNumPiles <= r.game.pileCount <= GoldMaxNumPiles && r.game.pileCount <= RoomCount(lines)
    ensures r.Started? ==> TotalGold(r.game.grid) == r.game.goldRemaining == GoldTotal
  {
    var map0 := Load(lines);
    var g0 := GameNew(map0, map0);
    assert TotalGold(map0) == 0 && GoldOnlyOnPiles(map0) by {
      LoadHoldsNoGold(lines);
    }
    match GenerateGold(g0.grid, values, cells)
    case GenExhausted => StartStalled
    case Generated(grid, count, _, _, rest) =>
      if count == 1 then TooFewRoomSpots
      else Started(g0.(grid := grid, pileCount := count), rest)
  }

  lemma {:induction false} RowGoldZero(row: seq<Cell>)
    requires forall x :: 0 <= x < |row| ==> row[x].gold == 0
    ensures RowGold(row) == 0
  {
    if row != [] {
      RowGoldZero(row[1..]);
    }
  }

  lemma {:induction false} RowsGoldZero(rows: seq<seq<Cell>>)
    requires forall y, x :: 0 <= y < |rows| && 0 <= x < |rows[y]| ==> rows[y][x].gold == 0
    ensures RowsGold(rows) == 0
  {
    if rows != [] {
      RowGoldZero(rows[0]);
      RowsGoldZero(rows[1..]);
    }
  }

  /** A freshly loaded map holds no gold. */
  lemma LoadHoldsNoGold(lines: seq<string>)
    ensures TotalGold(Load(lines)) == 0
    ensures GoldOnlyOnPiles(Load(lines))
  {
    var g := Load(lines);
    forall y, x | 0 <= y < |g.rows| && 0 <= x < |g.rows[y]|
      ensures g.rows[y][x].gold == 0
    {
      assert At(g, Pos(x, y)).gold == 0;
    }
    RowsGoldZero(g.rows);
  }

}
